=== FILE: README.md ===
# Insurance API request core, modelled in Dafny

This project models the request-decision logic of the Express API server of
the MonoRepo-Dashboard insurance back end, as pure functions over immutable
data. The routes modelled are:

- the policies routes: a role-scoped, filtered and paged listing; creation with a
  per-owner `POL-<owner>-<n>` number; a single read and a partial update, both
  gated on ownership or the ADMIN role;
- the claims routes: a `parseInt`-driven listing, a filtered get-by-id, and creation
  with a per-policy `CLM-<policy>-<n>` number;
- registration, login and the protected profile read;
- the bearer-token middleware;
- the in-memory users controller;
- the data listing route;
- the two environment loaders.

Every handler returns its HTTP reply (status plus body), and handlers that
write also return the new table. The database is a sequence of rows in query
order. Generated ids, the password hash, the hash comparison, token signing
and token verification are parameters.

Modules:

| module | file | what it holds |
|---|---|---|
| `Base` | base.dfy | `Option`, `Result`, JavaScript truthiness of an optional string, `Min`/`Max`/`Abs` |
| `Http` | http.dfy | replies, bodies, the state-passing `Step` |
| `Schema` | schema.dfy | the validation library: positive-integer fields, enumeration fields, abstract format checks |
| `Text` | text.dfy | JavaScript `trim`, `split(" ")`, `parseInt`, `Number` (integer forms), number rendering, case-insensitive `contains` |
| `Rows` | rows.dfy | the storage primitives: `where` filter, count, first match, `skip`/`take` paging, `Math.ceil` of a quotient |
| `Access` | access.dfy | roles and the role tests the routes apply |
| `EnvConfig` | env_config.dfy | the strict and the lenient environment loader |
| `AuthMiddleware` | auth_middleware.dfy | `authenticateToken` |
| `AuthRoutes` | auth_routes.dfy | `/register`, `/login`, `/protected` |
| `Policies` | policies.dfy | the policies routes |
| `Claims` | claims.dfy | the claims routes |
| `UsersController` | users_controller.dfy | the in-memory users controller |
| `DataRoute` | data_route.dfy | the data listing |
| `Pipeline` | pipeline.dfy | properties of middleware and routes together |

Notes on what the code does, which a reader might not expect:

- The middleware attaches only `userId` and `email` to the request, so the role the
  routes test is always absent. The model keeps the role as an `Option` so that each
  route's role rules can still be stated. `Pipeline` shows that behind the middleware
  every caller is unprivileged.
- Both listings report `total` as the length of the returned page. `pages` is the
  ceiling of that length divided by the limit, so it is 0 or 1 for a positive limit.
  It is not the number of pages of the whole result.
- Claim get-by-id is a filtered `findMany` that also applies the page's `skip`, and it
  has no 403 branch. Were a numeric page delivered, any page of 2 or more would answer
  404. A page supplied in a real query string is text and answers 500 (next note).
- The policy listing and claim get-by-id validate `page`/`limit` with
  `z.number()`. A query string is text, so supplying either one makes the parse throw,
  which becomes a 500 (`Policies.ListWithTextPagingFails`, `Claims.GetWithTextPagingFails`).
- Minimum lengths (password 8, name 2, claim description 10) count UTF-16 code units,
  as JavaScript's `length` does, so a character beyond the Basic Multilingual Plane
  counts twice.
- The claims listing uses `parseInt(...) || default`. A negative page or limit passes
  through; a negative skip is refused by the storage engine (500); a negative limit
  takes rows from the end and can report `pages = -1`.
- In the users controller a new id is `length + 1`, so deleting a user and then
  creating one can duplicate an id.

## Model

| member | source | states |
|---|---|---|
| Text.Trim | apps/api-server/src/controllers/usersController.ts:8-9 | trimming yields the empty string exactly when the input is all white space, and otherwise a string that starts and ends with a non-space |
| Text.TrimKeepsMiddle | apps/api-server/src/controllers/usersController.ts:8-9 | what trimming keeps is a slice of the input whose cut-off ends are all white space |
| Text.ParseIntNeedsSignOrDigit | apps/api-server/src/routes/claims.ts:28-29 | `parseInt` yields a number only when, after leading white space, the text starts with a sign or a decimal digit |
| Text.ParseIntOfDecimal | apps/api-server/src/routes/claims.ts:28-29 | `parseInt` reads back a rendered non-negative number when what follows cannot continue it |
| Text.ParseIntOfSignedDecimal | apps/api-server/src/routes/claims.ts:28-29 | `parseInt` reads a `-` or `+` sign followed by a rendered number as the signed value |
| Text.ParseIntSkipsLeadingSpace | apps/api-server/src/routes/claims.ts:28-29 | leading white space never changes what `parseInt` reads |
| Text.ParseIntWithoutDigits | apps/api-server/src/routes/claims.ts:28-29 | a string with no decimal digit is NaN to `parseInt` |
| Text.NatToStringValue | apps/api-server/src/routes/policies.ts:106 | the decimal rendering of a count consists of digits whose value is the count |
| Text.NatToStringInjective | apps/api-server/src/routes/policies.ts:106 | different counts render differently |
| Text.Numbered | apps/api-server/src/routes/policies.ts:106 | a record number `${prefix}${key}-${n}` (`POL-<owner>-<n>`, and `CLM-<policy>-<n>` at claims.ts:161) starts with its prefix |
| Text.NumberedInjective | apps/api-server/src/routes/claims.ts:161 | under one prefix, a policy or claim number determines its key (owner or policy) and the sequence number |
| Text.JsNumberOfBlank | apps/api-server/src/routes/data.ts:15-16 | `Number` of blank text is 0 |
| Text.JsNumberOfDecimal | apps/api-server/src/routes/data.ts:15-16 | `Number` reads back a rendered non-negative integer |
| Text.NumberOfDigits | apps/api-server/src/routes/data.ts:15-16 | `Number` reads unsigned decimal digits as their value |
| Text.NumberOfNegativeDigits | apps/api-server/src/routes/data.ts:15-16 | `Number` reads a minus sign before decimal digits as the negated value |
| Text.Utf16Length | apps/api-server/src/routes/auth.ts:15-16 | a string's JavaScript length lies between its character count and twice that |
| Text.Utf16LengthAppend | apps/api-server/src/routes/auth.ts:15-16 | the length of a concatenation is the sum of the lengths |
| Text.Utf16LengthCounts | apps/api-server/src/routes/claims.ts:13 | the length equals the character count when no character lies beyond the Basic Multilingual Plane, and twice it when every one does |
| Text.Split | apps/api-server/src/middleware/auth.ts:15 | `split(" ")` yields at least one part, and no part contains a space |
| Text.JoinSplit | apps/api-server/src/middleware/auth.ts:15 | joining the parts of a split with the separator gives back the original string |
| Text.SplitJoin | apps/api-server/src/middleware/auth.ts:15 | splitting a join of separator-free parts gives back the parts |
| Text.ContainsIffOccurs | apps/api-server/src/routes/data.ts:14 | the recursive substring test holds exactly when the search text occurs at some position |
| Text.ContainsIgnoringCaseReflexive | apps/api-server/src/routes/data.ts:14 | every name contains itself, ignoring case |
| Rows.Filter | apps/api-server/src/routes/policies.ts:58-59 | a `where` query returns only rows that satisfy it, and every table row that satisfies it |
| Rows.FirstIndex | apps/api-server/src/routes/policies.ts:150-152 | a unique lookup finds the first matching row, or reports that no row matches |
| Rows.Window | apps/api-server/src/routes/claims.ts:70-71 | paging succeeds exactly when skip is non-negative; the page has `min(|take|, rows left)` rows, taken after the skip for a positive take and counted from the end for a negative one |
| Rows.CeilDiv | apps/api-server/src/routes/claims.ts:78 | `Math.ceil(a / b)` for a positive or negative divisor, as ceiling bounds |
| Rows.PagesOfOnePage | apps/api-server/src/routes/policies.ts:86 | the ceiling of a page length over a positive limit it does not exceed is 0 for an empty page and 1 otherwise |
| Claims.LastRowsPage | apps/api-server/src/routes/claims.ts:70-78 | a take of -n from the first row gives the last n rows, and n over -n rounds up to -1 pages |
| Access.SeesAllPolicies | apps/api-server/src/routes/policies.ts:49 | ADMIN, ADJUSTER and AGENT list every policy; anyone else only their own |
| Access.SeesAllClaims | apps/api-server/src/routes/claims.ts:32 | ADJUSTER and ADMIN list every claim; anyone else only their own |
| Access.MayTouchPolicy | apps/api-server/src/routes/policies.ts:174-176 | a single policy may be read or updated by its owner or by an ADMIN |
| Access.ClaimPrivilegeNarrower | apps/api-server/src/routes/claims.ts:32-34 | every role that lists all claims also lists all policies; an AGENT lists all policies but only their own claims |
| Access.NoRoleNoPrivilege | apps/api-server/src/routes/policies.ts:174-176 | a caller without a role passes no role test and may touch only their own policies |
| Schema.PositiveInt | apps/api-server/src/routes/policies.ts:23-24 | an absent value takes the default; text is rejected; a number is accepted exactly when it is a positive whole number |
| Schema.OptionalMember | apps/api-server/src/routes/policies.ts:21-22 | an optional enumeration field passes exactly when absent or a member, and keeps its value |
| EnvConfig.GetEnvVarStrict | apps/api-server/src/config/env.ts:5-16 | a truthy variable is returned; otherwise the "is not set" error, so the production error can never be raised |
| EnvConfig.StrictIgnoresDefault | apps/api-server/src/config/env.ts:5-16 | the strict loader's default argument never changes its result |
| EnvConfig.LoadStrict | apps/api-server/src/config/env.ts:18-21 | configuration loads exactly when all four variables are truthy, and then holds their values |
| EnvConfig.GetEnvVarLenient | monorepo-dashboard-toolkit/apps/api-server/src/config/env.ts:5-25 | the value if truthy, else the default if truthy, else the production or the plain "is not set" error |
| EnvConfig.LoadLenient | monorepo-dashboard-toolkit/apps/api-server/src/config/env.ts:27-30 | loads exactly when the secret and the database URL are set; PORT falls back to 3000 and HOST to localhost |
| EnvConfig.StrictLoadsImpliesLenientAgrees | monorepo-dashboard-toolkit/apps/api-server/src/config/env.ts:5-30 | whenever the strict loader succeeds the lenient one gives the same configuration, and without PORT only the lenient one succeeds |
| AuthMiddleware.BearerToken | apps/api-server/src/middleware/auth.ts:14-15 | the extracted token is the second space-separated word of the header, when that word is non-empty |
| AuthMiddleware.BearerTokenOfHeader | apps/api-server/src/middleware/auth.ts:15 | `<scheme> <token>`, followed by nothing or by text that starts with a space, yields the token for a space-free scheme and a non-empty, space-free token; the converse of the position lemma |
| AuthMiddleware.BearerTokenNeedsSpace | apps/api-server/src/middleware/auth.ts:15-20 | a header without a space yields no token |
| AuthMiddleware.BearerTokenPosition | apps/api-server/src/middleware/auth.ts:15 | an extracted token sits right after the first space and is followed by nothing or another space |
| AuthMiddleware.Authenticate | apps/api-server/src/middleware/auth.ts:13-29 | no token: 401 "Access token required"; a token that fails verification: 401 "Invalid token"; a token that verifies: no reply, the decoded payload attached and `next` called exactly once |
| AuthRoutes.Register | apps/api-server/src/routes/auth.ts:13-51 | invalid body 400 (lengths in UTF-16 code units); a taken e-mail 409 with the table unchanged; on 201 exactly one account is appended, holding the hash of the password; the "required" 400 is answered exactly for a format-valid empty e-mail; a clash of the generated id is answered 500 "Something went wrong" with the table unchanged |
| AuthRoutes.AstralPasswordIsLongEnough | apps/api-server/src/routes/auth.ts:15 | any password of four or more characters beyond the Basic Multilingual Plane meets the 8-unit minimum |
| AuthRoutes.RegisterKeepsEmailsUnique | apps/api-server/src/routes/auth.ts:33-44 | registration keeps e-mail addresses unique |
| AuthRoutes.Login | apps/api-server/src/routes/auth.ts:54-78 | 200 exactly when both fields are present, the e-mail is known and the password matches, and then the token is signed for that account's id and e-mail with a one-hour expiry; every other case is 401 |
| AuthRoutes.LoginHidesAccountExistence | apps/api-server/src/routes/auth.ts:61-69 | an unknown e-mail and a wrong password get the identical reply |
| AuthRoutes.RegisteredCanLogIn | apps/api-server/src/routes/auth.ts:39-73 | after a successful registration, logging in with the same credentials succeeds with a token for the new id |
| AuthRoutes.ProtectedProfile | apps/api-server/src/routes/auth.ts:81-92 | 404 exactly when no account has the token's id; otherwise the id, e-mail and name of that account |
| Policies.FindPolicyAt | apps/api-server/src/routes/policies.ts:150-152 | with unique ids, looking up a policy's id finds that policy |
| Policies.ParseListQuery | apps/api-server/src/routes/policies.ts:20-25 | a query is accepted exactly when each filter is absent or an enumeration member and page and limit are each absent or a positive whole number; it then has those values (1 and 20 when absent) and the filters unchanged |
| Policies.ListWithTextPagingFails | apps/api-server/src/routes/policies.ts:20-25 | a page or limit given as query text makes the listing answer 500 |
| Policies.ListPolicies | apps/api-server/src/routes/policies.ts:38-92 | 200 exactly when the query parses, else 500; every listed policy is stored, matches the filters, and belongs to the caller unless ADMIN, ADJUSTER or AGENT; total is the page length; pages is 0 or 1 |
| Policies.ListPoliciesPaging | apps/api-server/src/routes/policies.ts:43-80 | the page is exactly the run of matching policies that starts at `(page - 1) * limit` |
| Policies.ListShowsWhatGetRefuses | apps/api-server/src/routes/policies.ts:49-51 | an ADJUSTER or AGENT sees another owner's policy in the listing but gets 403 reading it by id |
| Policies.CreatePolicy | apps/api-server/src/routes/policies.ts:95-142 | invalid body 400; on 201 one ACTIVE policy of the caller is appended, carrying the submitted fields and the number `POL-<owner>-<count + 1>` |
| Policies.CreateKeepsUniqueIds | apps/api-server/src/routes/policies.ts:108-120 | creation keeps policy ids unique |
| Policies.SuccessiveCreatesDiffer | apps/api-server/src/routes/policies.ts:105-106 | two successive creations by one owner get different policy numbers |
| Policies.GetPolicy | apps/api-server/src/routes/policies.ts:145-183 | 404 exactly when no policy has the id; 403 exactly when it exists and the caller is neither its owner nor ADMIN; otherwise that policy |
| Policies.ApplyPatch | apps/api-server/src/routes/policies.ts:209-224 | each supplied field replaces the stored one, every other field (id, number and owner included) is kept |
| Policies.PatchAlgebra | apps/api-server/src/routes/policies.ts:209-224 | two patches in a row equal their merge, the empty patch changes nothing, and a patch is idempotent |
| Policies.UpdatePolicy | apps/api-server/src/routes/policies.ts:186-239 | 400 before 404 before 403, each leaving the table unchanged; a valid patch on an existing policy by its owner or an ADMIN answers 200, and then exactly the found policy is rewritten by the patch |
| Policies.UpdateKeepsKeysAndOwners | apps/api-server/src/routes/policies.ts:214-224 | an update keeps every id, number and owner, and so keeps ids unique |
| Claims.IntOr | apps/api-server/src/routes/claims.ts:28-29 | `parseInt(v) || d` is never 0 for a non-zero default, and an absent value gives the default |
| Claims.IntOrOfPositive | apps/api-server/src/routes/claims.ts:28-29 | a positive number in the query is used as written |
| Claims.IntOrOfNegative | apps/api-server/src/routes/claims.ts:28-29 | a negative number in the query passes through the `||` fallback |
| Claims.IntOrOfZero | apps/api-server/src/routes/claims.ts:28-29 | any text `parseInt` reads as 0 falls back to the default; with `IntOrOfParsed` and `IntOrOfNaN` this settles every input |
| Claims.IntOrOfNaN | apps/api-server/src/routes/claims.ts:28-29 | any text `parseInt` reads as NaN (`x1`, `-`) falls back to the default |
| Claims.ZeroSpellingsFallBack | apps/api-server/src/routes/claims.ts:28-29 | a zero after white space, with or without a sign and followed by anything `parseInt` stops at (`-0`, ` 0`, `0abc`), falls back to the default |
| Claims.SignedZeroReadsAsZero | apps/api-server/src/routes/claims.ts:28-29 | `0`, `-0` and `+0`, followed by anything `parseInt` stops at, read as zero |
| Claims.IntOrWithoutDigits | apps/api-server/src/routes/claims.ts:28-29 | a value without digits falls back to the default |
| Claims.ListClaims | apps/api-server/src/routes/claims.ts:25-84 | 200 exactly when the skip is non-negative, else 500; listed claims are stored and the caller's own unless ADJUSTER or ADMIN; total is the page length and pages its ceiling over the limit |
| Claims.ListClaimsPaging | apps/api-server/src/routes/claims.ts:28-71 | the listing succeeds exactly when the window of the claims in scope at skip `(page - 1) * limit` and take `limit` exists, and its data is that window (so, by `Rows.Window`, `min(abs(limit), rows left)` claims from the skip on, counted from the end for a negative limit) |
| Claims.ListClaimsDefaults | apps/api-server/src/routes/claims.ts:28-29 | with no page and limit, the listing is the first 20 claims in scope |
| Claims.NegativePageFails | apps/api-server/src/routes/claims.ts:28-71 | a negative page gives a negative skip, answered with 500 |
| Claims.NegativeLimitGivesNegativePages | apps/api-server/src/routes/claims.ts:29-78 | a limit of -n, with at least n claims in scope, returns the last n of them and reports pages = -1 |
| Claims.ParseGetQuery | apps/api-server/src/routes/claims.ts:17-22 | a query is accepted exactly when the policy id is absent or a uuid, the status absent or a member, and page and limit each absent or a positive whole number; it then has those values and the filters unchanged |
| Claims.GetClaim | apps/api-server/src/routes/claims.ts:87-148 | 500 exactly when the query fails to parse; otherwise 200 with a claim that has the id, is in scope and matches the filters, or 404; never 403 |
| Claims.GetWithTextPagingFails | apps/api-server/src/routes/claims.ts:17-22 | a page or limit given as query text makes reading a claim answer 500 |
| Claims.GetClaimLaterPageNotFound | apps/api-server/src/routes/claims.ts:98-140 | with unique ids, were a numeric page delivered, any page of 2 or more would answer 404 (a page in a real query string is text and answers 500) |
| Claims.GetClaimFirstPage | apps/api-server/src/routes/claims.ts:93-143 | on the first page a stored claim is returned exactly when it is in scope and matches the filters |
| Claims.AtMostOneMatch | apps/api-server/src/routes/claims.ts:105-106 | with unique ids, a filter that implies the id matches at most one claim |
| Claims.CreateClaim | apps/api-server/src/routes/claims.ts:10-203 | invalid body 400 (description length in UTF-16 code units); on 201 one DRAFT claim of the caller is appended with `CLM-<policy>-<count + 1>`, no ownership check on the policy; a clash of the generated id is answered with the route's 500 and the table unchanged |
| Claims.CreateClaimIgnoresOwnership | apps/api-server/src/routes/claims.ts:153-163 | whether creation succeeds does not depend on who the caller is |
| UsersController.SequentialIdsAreUnique | apps/api-server/src/controllers/usersController.ts:3-6 | ids 1..n in order are distinct |
| UsersController.SafeUpdate | apps/api-server/src/controllers/usersController.ts:8-9 | a supplied value that is not all white space replaces the old one; otherwise the old one stays |
| UsersController.SafeUpdateIdempotent | apps/api-server/src/controllers/usersController.ts:8-9 | applying the same update twice equals applying it once |
| UsersController.FindUser | apps/api-server/src/controllers/usersController.ts:37 | `findIndex` finds the first user with the id, or reports that there is none |
| UsersController.CreateUser | apps/api-server/src/controllers/usersController.ts:17-25 | missing name or e-mail 400 with the list unchanged; otherwise the list grows by one user with id `length + 1`, the rest unchanged |
| UsersController.CreateKeepsSequentialIds | apps/api-server/src/controllers/usersController.ts:22-23 | without deletions, creation keeps the ids 1..n and so distinct |
| UsersController.UpdateUser | apps/api-server/src/controllers/usersController.ts:28-51 | NaN or non-positive id 400; unknown id 404; 200 exactly when the id is positive and names a user, and then only the first user with the id changes, field by field through the safe update |
| UsersController.UpdateKeepsIds | apps/api-server/src/controllers/usersController.ts:45-47 | an update never changes any id |
| UsersController.DeleteUser | apps/api-server/src/controllers/usersController.ts:54-63 | 404 exactly when the id is NaN or unknown; otherwise the first user with the id is spliced out and reported |
| UsersController.DeleteRemovesOnlyThatUser | apps/api-server/src/controllers/usersController.ts:61 | the list after deletion plus the reported user is exactly the list before |
| UsersController.DuplicateIdAfterDelete | apps/api-server/src/controllers/usersController.ts:22-61 | from the seed, deleting the user whose id text parses to 1 and then creating a user leaves two users with id 2 |
| UsersController.DeletingUserOneDuplicatesId | apps/api-server/src/controllers/usersController.ts:17-61 | on the seed, the delete handler called with id `1` and then the create handler leave two users with id 2 |
| DataRoute.Selected | apps/api-server/src/routes/data.ts:14 | the search result has no more rows than the table, and every row of it is a table row |
| DataRoute.SelectedExact | apps/api-server/src/routes/data.ts:14 | an empty search keeps every row; otherwise exactly the rows whose name contains the search, ignoring case |
| DataRoute.SelectedKeepsExactName | apps/api-server/src/routes/data.ts:14 | a row named exactly as the search is always found |
| DataRoute.ListData | apps/api-server/src/routes/data.ts:7-24 | 200 exactly when offset and limit read as integers and the offset is non-negative; otherwise 500 "Failed to fetch data" |
| DataRoute.ListDataContents | apps/api-server/src/routes/data.ts:13-19 | a successful page holds at most `abs(limit)` rows of the table that match the search, and for a non-negative limit exactly the matches from position offset on |
| DataRoute.PageOfSelected | apps/api-server/src/routes/data.ts:13-17 | every row of a page of the search result is a matching table row |
| DataRoute.ListDataDefaults | apps/api-server/src/routes/data.ts:9-17 | with no query parameters, the first ten rows are skipped and the next ten returned |
| DataRoute.NegativeOffsetFails | apps/api-server/src/routes/data.ts:15-22 | an offset of a minus sign before positive decimal digits is answered with 500 |
| DataRoute.NumberOfDefault | apps/api-server/src/routes/data.ts:9-16 | both default query values read as ten |
| Pipeline.CallerOf | apps/api-server/src/middleware/auth.ts:26 | the caller behind the middleware has the token's id and passes no role test |
| Pipeline.AuthenticatedListingsAreOwn | apps/api-server/src/routes/policies.ts:49-51 | behind the middleware, policy and claim listings hold only the authenticated user's own records |
| Pipeline.AuthenticatedCannotTouchOthersPolicy | apps/api-server/src/routes/policies.ts:174-206 | behind the middleware, reading or validly updating another owner's policy is refused with 403 |
| Pipeline.LoginThenAuthenticate | apps/api-server/src/routes/auth.ts:72-73 | the token from a successful login, sent back as `Bearer <token>`, passes the middleware with the identity it was signed for |

## Left out

- Express mechanics (routers, `res.json`, the rate limiter, the not-found and error handlers, swagger, the `/api/users` wiring, `index.ts`) are not modelled. Only each handler's decision is.
- Prisma `include`/`select`/`orderBy`, timestamps and relations are not modelled. A row holds only the fields the decisions read or write, and a table is a sequence already in query order.
- Storage failures other than a clash of a generated id are not modelled. These include foreign-key violations (a claim's policy or property that does not exist) and connection errors. The generated id is a parameter, and a clash is answered with the route's 500.
- Count-then-create races between concurrent requests are not modelled. Each handler runs alone.
- bcrypt, `jwt.sign` and `jwt.verify` are uninterpreted function parameters. `LoginThenAuthenticate` assumes that verification inverts signing. Token expiry is not modelled.
- The validation library's uuid, e-mail, date-coercion and enumeration checks are abstract predicates. Its `details` error message is omitted from 400 bodies.
- Numbers are unbounded integers and exact reals. JavaScript double precision, and `parseInt` of numbers too large to be exact, are not modelled.
- Text.JsNumber: only blank text, signed decimal integers and `0x`/`0o`/`0b` literals are read. A decimal point, an exponent or `Infinity` is treated as not an integer, which answers 500. This is weaker than `Number` for forms such as `1e1`.
- Text.ContainsIgnoringCase: folds only ASCII letters. The database's locale-aware case folding is not modelled.
- Login and the protected route catch unexpected errors with a 500. No modelled input reaches those paths, so they are left out.
- The JWT payload is taken as exactly `{ userId, email }`. A token whose payload has other shapes is not modelled.
- UsersController.UpdateUser: request bodies are taken as strings. A truthy non-string `name` or `email` (such as the JSON body `{"email": 5}`) makes `updateUser` throw, which is answered with 500, and the `name` may already have been rewritten by then. `createUser` stores such a value as it is. Neither case is modelled, because the body type of the model holds only text.
- `apps/api-server/controllers/usersController.ts` (a static listing), the validation middleware and the user schema are not part of this model.

=== FILE: access.dfy ===
/**
 * Who the routes think the caller is, and the role tests they apply.
 * A role that is absent (the identity the middleware attaches carries none)
 * passes none of the privileged tests.
 */
module Access {
  import opened Base

  datatype Role = Admin | Adjuster | Agent | User

  /** The `req.user` the routes read: the caller's id and, possibly, a role. */
  datatype Caller = Caller(userId: string, role: Option<Role>)

  /** Policy listing is unrestricted for ADMIN, ADJUSTER and AGENT. */
  predicate SeesAllPolicies(role: Option<Role>) {
    role == Some(Admin) || role == Some(Adjuster) || role == Some(Agent)
  }

  /** Claim listing is unrestricted for ADJUSTER and ADMIN only. */
  predicate SeesAllClaims(role: Option<Role>) {
    role == Some(Adjuster) || role == Some(Admin)
  }

  /** Reading or updating one policy: its owner, or an ADMIN. */
  predicate MayTouchPolicy(caller: Caller, ownerId: string) {
    ownerId == caller.userId || caller.role == Some(Admin)
  }

  /** The owner restriction a list query adds: the caller's own id unless unrestricted. */
  function OwnerScope(caller: Caller, unrestricted: bool): (r: Option<string>)
    ensures r.None? <==> unrestricted
    ensures r.Some? ==> r.value == caller.userId
  {
    if unrestricted then None else Some(caller.userId)
  }

  /**
   * The claim privilege set is strictly inside the policy privilege set: an
   * AGENT lists every policy but only its own claims.
   */
  lemma ClaimPrivilegeNarrower(role: Option<Role>)
    ensures SeesAllClaims(role) ==> SeesAllPolicies(role)
    ensures SeesAllPolicies(Some(Agent)) && !SeesAllClaims(Some(Agent))
  {
  }

  /** A caller without a role is restricted everywhere and may touch only its own policies. */
  lemma NoRoleNoPrivilege(caller: Caller, ownerId: string)
    requires caller.role.None?
    ensures !SeesAllPolicies(caller.role) && !SeesAllClaims(caller.role)
    ensures MayTouchPolicy(caller, ownerId) <==> ownerId == caller.userId
  {
  }
}

=== FILE: auth_middleware.dfy ===
/**
 * `authenticateToken`: take the bearer token from the Authorization header,
 * verify it, and either reject the request with 401 or attach the decoded
 * identity and pass the request on.
 */
module AuthMiddleware {
  import opened Base
  import opened Text
  import opened Http

  /** The identity a token carries and the middleware attaches: an id and an e-mail, no role. */
  datatype TokenPayload = TokenPayload(userId: string, email: string)

  const TokenRequired: string := "Access token required"
  const InvalidToken: string := "Invalid token"

  /**
   * The second space-separated segment of the header, when the header is
   * present and that segment is non-empty; the scheme word is not inspected.
   */
  function BearerToken(header: Option<string>): (t: Option<string>)
    ensures t.Some? ==> t.value != "" && ' ' !in t.value
  {
    if header.None? || header.value == "" then None
    else
      var parts := Split(header.value, ' ');
      if |parts| >= 2 && parts[1] != "" then Some(parts[1]) else None
  }

  /**
   * `<scheme> <token>`, followed by nothing or by anything that starts with a
   * space, yields the token, for any scheme word: the converse of
   * `BearerTokenPosition`.
   */
  lemma BearerTokenOfHeader(scheme: string, token: string, tail: string)
    requires ' ' !in scheme && ' ' !in token && token != ""
    requires tail == "" || tail[0] == ' '
    ensures BearerToken(Some(scheme + " " + token + tail)) == Some(token)
  {
    var parts := HeaderWords(scheme, token, tail);
    SplitJoin(parts, ' ');
  }

  /** The words of `<scheme> <token><tail>`: the scheme, the token, then the words of the tail. */
  function HeaderWords(scheme: string, token: string, tail: string): (parts: seq<string>)
    requires ' ' !in scheme && ' ' !in token
    requires tail == "" || tail[0] == ' '
    ensures |parts| >= 2 && parts[0] == scheme && parts[1] == token
    ensures forall i :: 0 <= i < |parts| ==> ' ' !in parts[i]
    ensures Join(parts, ' ') == scheme + " " + token + tail
  {
    if tail == "" then
      var parts := [scheme, token];
      assert parts[1..] == [token];
      parts
    else
      var rest := Split(tail[1..], ' ');
      var parts := [scheme, token] + rest;
      JoinSplit(tail[1..], ' ');
      assert parts[1..][1..] == rest;
      assert tail == " " + tail[1..];
      assert Join(parts[1..], ' ') == token + " " + Join(rest, ' ');
      parts
  }

  /** A header without a space holds no token. */
  lemma BearerTokenNeedsSpace(header: string)
    requires ' ' !in header
    ensures BearerToken(Some(header)) == None
  {
    SplitJoin([header], ' ');
  }

  /**
   * Whatever token is extracted is the word right after the first space of
   * the header, ended by the next space or the end of the header.
   */
  lemma BearerTokenPosition(header: string, token: string)
    requires BearerToken(Some(header)) == Some(token)
    ensures exists scheme, tail ::
      && ' ' !in scheme
      && (tail == "" || tail[0] == ' ')
      && header == scheme + " " + token + tail
  {
    var parts := Split(header, ' ');
    JoinSplit(header, ' ');
    var tail := if |parts| == 2 then "" else " " + Join(parts[2..], ' ');
    assert Join(parts, ' ') == parts[0] + " " + Join(parts[1..], ' ');
    if |parts| == 2 {
      assert parts[1..] == [token];
      assert header == parts[0] + " " + token;
      assert header == parts[0] + " " + token + tail;
    } else {
      assert Join(parts[1..], ' ') == token + " " + Join(parts[2..], ' ') by {
        assert parts[1..][1..] == parts[2..];
      }
    }
    assert ' ' !in parts[0];
    assert header == parts[0] + " " + token + tail;
    assert tail == "" || tail[0] == ' ';
  }

  /**
   * What the middleware did: the reply it sent (if any), the identity it
   * attached (if any), and how many times it called the next handler.
   */
  datatype Gate = Gate(reply: Option<Reply<()>>, user: Option<TokenPayload>, nextCalls: nat)

  /**
   * `authenticateToken`. `verify` stands for the token library's check of
   * signature and expiry under the configured secret: the decoded payload on
   * success, `None` on any error.
   */
  function Authenticate(header: Option<string>, verify: string -> Option<TokenPayload>): (g: Gate)
    ensures g.nextCalls <= 1
    ensures g.nextCalls == 1 <==> g.user.Some?
    ensures g.user.Some? <==> g.reply.None?
    ensures BearerToken(header).None? ==>
      g.reply == Some(Reply(401, ErrorBody(TokenRequired))) && g.user.None?
    ensures BearerToken(header).Some? && verify(BearerToken(header).value).None? ==>
      g.reply == Some(Reply(401, ErrorBody(InvalidToken))) && g.user.None?
    ensures BearerToken(header).Some? && verify(BearerToken(header).value).Some? ==>
      g == Gate(None, verify(BearerToken(header).value), 1)
    ensures g.user.Some? ==>
      BearerToken(header).Some? && verify(BearerToken(header).value) == g.user
  {
    match BearerToken(header)
    case None => Gate(Some(Reply(401, ErrorBody(TokenRequired))), None, 0)
    case Some(token) =>
      match verify(token)
      case None => Gate(Some(Reply(401, ErrorBody(InvalidToken))), None, 0)
      case Some(decoded) => Gate(None, Some(decoded), 1)
  }
}

=== FILE: auth_routes.dfy ===
/**
 * The authentication routes: registration (validate, refuse a taken e-mail,
 * store a password hash), login (one answer for an unknown e-mail and a wrong
 * password; a one-hour token on success) and the protected profile read.
 * Hashing, hash comparison and token signing are parameters.
 */
module AuthRoutes {
  import opened Base
  import opened Text
  import opened Http
  import opened Schema
  import opened Rows
  import opened AuthMiddleware

  /** A stored user: the password field holds the hash. */
  datatype Account = Account(id: string, email: string, password: string, name: string)

  const MinPassword: nat := 8
  const MinName: nat := 2
  const ExpiresIn: string := "1h"
  const FieldsRequired: string := "Email, password, and name are required"
  const EmailInUse: string := "Email already in use"
  const UserCreated: string := "User created successfully"
  const RegisterFailed: string := "Something went wrong"
  const CredentialsRequired: string := "Email and password are required"
  const InvalidCredentials: string := "Invalid credentials"
  const LoginSucceeded: string := "Login successful"
  const UserNotFound: string := "User not found"
  const AccessGranted: string := "Access granted"

  /** The unique-e-mail invariant of the user table. */
  predicate UniqueEmails(accounts: seq<Account>) {
    forall i, j :: 0 <= i < j < |accounts| ==> accounts[i].email != accounts[j].email
  }

  function FindByEmail(accounts: seq<Account>, email: string): (r: Option<nat>)
    ensures r.Some? ==> r.value < |accounts| && accounts[r.value].email == email
    ensures r.None? <==> forall j :: 0 <= j < |accounts| ==> accounts[j].email != email
  {
    FirstIndex(accounts, (a: Account) => a.email == email)
  }

  function FindById(accounts: seq<Account>, id: string): (r: Option<nat>)
    ensures r.Some? ==> r.value < |accounts| && accounts[r.value].id == id
    ensures r.None? <==> forall j :: 0 <= j < |accounts| ==> accounts[j].id != id
  {
    FirstIndex(accounts, (a: Account) => a.id == id)
  }

  // ----------------------------------------------------------- registration

  datatype RegisterBody = RegisterBody(email: Option<string>, password: Option<string>, name: Option<string>)

  /**
   * `userRegistrationSchema`: an e-mail, a password of 8 or more and a name of
   * 2 or more UTF-16 code units (the unit of a JavaScript string's length).
   */
  predicate ValidRegistration(f: Formats, b: RegisterBody) {
    && b.email.Some? && f.isEmail(b.email.value)
    && b.password.Some? && Utf16Length(b.password.value) >= MinPassword
    && b.name.Some? && Utf16Length(b.name.value) >= MinName
  }

  /** Four or more characters beyond the Basic Multilingual Plane already make a long enough password. */
  lemma AstralPasswordIsLongEnough(password: string)
    requires |password| >= 4 && forall i :: 0 <= i < |password| ==> IsAstral(password[i])
    ensures Utf16Length(password) >= MinPassword
  {
    Utf16LengthCounts(password);
  }

  datatype Registered = Registered(message: string, userId: string)

  /**
   * `POST /register`. `hash` is the salted one-way hash; `newId` the id the
   * database generates (a clash is a failure, answered with 500).
   */
  function Register(f: Formats, hash: string -> string, b: RegisterBody, newId: string, accounts: seq<Account>)
    : (r: Step<Registered, seq<Account>>)
    ensures !ValidRegistration(f, b) ==> r == Step(Reply(400, ErrorBody(InvalidBody)), accounts)
    ensures r.reply.body == ErrorBody(FieldsRequired) ==> b.email == Some("")
    ensures ValidRegistration(f, b) && b.email.value == "" ==>
      r == Step(Reply(400, ErrorBody(FieldsRequired)), accounts)
    ensures ValidRegistration(f, b) && b.email.value != "" && FindByEmail(accounts, b.email.value).Some? ==>
      r == Step(Reply(409, ErrorBody(EmailInUse)), accounts)
    ensures (ValidRegistration(f, b) && b.email.value != ""
             && FindByEmail(accounts, b.email.value).None? && FindById(accounts, newId).Some?) ==>
      r == Step(Reply(500, ErrorBody(RegisterFailed)), accounts)
    ensures r.reply.status != 201 ==> r.state == accounts
    ensures r.reply.status == 201 <==>
      ValidRegistration(f, b) && b.email.value != ""
      && FindByEmail(accounts, b.email.value).None? && FindById(accounts, newId).None?
    ensures r.reply.status == 201 ==>
      && r.state == accounts + [Account(newId, b.email.value, hash(b.password.value), b.name.value)]
      && r.reply.body == Payload(Registered(UserCreated, newId))
  {
    if !ValidRegistration(f, b) then Step(Reply(400, ErrorBody(InvalidBody)), accounts)
    else
      var email, password, name := b.email.value, b.password.value, b.name.value;
      if email == "" || password == "" || name == "" then Step(Reply(400, ErrorBody(FieldsRequired)), accounts)
      else if FindByEmail(accounts, email).Some? then Step(Reply(409, ErrorBody(EmailInUse)), accounts)
      else if FindById(accounts, newId).Some? then Step(Reply(500, ErrorBody(RegisterFailed)), accounts)
      else
        var account := Account(newId, email, hash(password), name);
        Step(Reply(201, Payload(Registered(UserCreated, newId))), accounts + [account])
  }

  /** Registration keeps e-mail addresses unique. */
  lemma RegisterKeepsEmailsUnique(f: Formats, hash: string -> string, b: RegisterBody, newId: string, accounts: seq<Account>)
    requires UniqueEmails(accounts)
    ensures UniqueEmails(Register(f, hash, b, newId, accounts).state)
  {
  }

  // ------------------------------------------------------------------ login

  datatype LoginBody = LoginBody(email: Option<string>, password: Option<string>)

  datatype LoggedIn = LoggedIn(message: string, token: string)

  /**
   * `POST /login`. `compare(plain, hashed)` is the hash comparison and
   * `sign(payload, expiresIn)` the token signer under the configured secret.
   */
  function Login(compare: (string, string) -> bool, sign: (TokenPayload, string) -> string,
                 b: LoginBody, accounts: seq<Account>): (r: Reply<LoggedIn>)
    ensures r.status == 200 || r.status == 401
    ensures !Truthy(b.email) || !Truthy(b.password) ==> r == Reply(401, ErrorBody(CredentialsRequired))
    ensures Truthy(b.email) && Truthy(b.password) && r.status == 401 ==> r.body == ErrorBody(InvalidCredentials)
    ensures r.status == 200 <==>
      && Truthy(b.email) && Truthy(b.password)
      && FindByEmail(accounts, b.email.value).Some?
      && compare(b.password.value, accounts[FindByEmail(accounts, b.email.value).value].password)
    ensures r.status == 200 ==>
      var a := accounts[FindByEmail(accounts, b.email.value).value];
      r.body == Payload(LoggedIn(LoginSucceeded, sign(TokenPayload(a.id, a.email), ExpiresIn)))
  {
    if !Truthy(b.email) || !Truthy(b.password) then Reply(401, ErrorBody(CredentialsRequired))
    else
      match FindByEmail(accounts, b.email.value)
      case None => Reply(401, ErrorBody(InvalidCredentials))
      case Some(i) =>
        if !compare(b.password.value, accounts[i].password) then Reply(401, ErrorBody(InvalidCredentials))
        else
          var token := sign(TokenPayload(accounts[i].id, accounts[i].email), ExpiresIn);
          Reply(200, Payload(LoggedIn(LoginSucceeded, token)))
  }

  /**
   * An unknown e-mail and a known e-mail with a wrong password get the very
   * same answer, so a reply never reveals whether an address is registered.
   */
  lemma LoginHidesAccountExistence(compare: (string, string) -> bool, sign: (TokenPayload, string) -> string,
                                   b: LoginBody, unknown: seq<Account>, known: seq<Account>)
    requires Truthy(b.email) && Truthy(b.password)
    requires FindByEmail(unknown, b.email.value).None?
    requires FindByEmail(known, b.email.value).Some?
    requires !compare(b.password.value, known[FindByEmail(known, b.email.value).value].password)
    ensures Login(compare, sign, b, unknown) == Login(compare, sign, b, known)
    ensures Login(compare, sign, b, unknown) == Reply(401, ErrorBody(InvalidCredentials))
  {
  }

  /**
   * Whoever has just registered can log in with the same e-mail and password,
   * provided the comparison accepts a password against its own hash; the
   * token then carries the new id and the e-mail.
   */
  lemma RegisteredCanLogIn(f: Formats, hash: string -> string, compare: (string, string) -> bool,
                           sign: (TokenPayload, string) -> string, b: RegisterBody, newId: string,
                           accounts: seq<Account>)
    requires Register(f, hash, b, newId, accounts).reply.status == 201
    requires compare(b.password.value, hash(b.password.value))
    ensures var after := Register(f, hash, b, newId, accounts).state;
      Login(compare, sign, LoginBody(b.email, b.password), after)
      == Reply(200, Payload(LoggedIn(LoginSucceeded, sign(TokenPayload(newId, b.email.value), ExpiresIn))))
  {
    var after := Register(f, hash, b, newId, accounts).state;
    assert FindByEmail(after, b.email.value) == Some(|accounts|) by {
      var r := FindByEmail(after, b.email.value);
      assert after[|accounts|].email == b.email.value;
      assert r.Some? && r.value >= |accounts|;
    }
  }

  // -------------------------------------------------------------- protected

  datatype Profile = Profile(id: string, email: string, name: string)

  datatype ProfileReply = ProfileReply(message: string, user: Profile)

  /** `GET /protected`: the caller's own profile, without the password hash. */
  function ProtectedProfile(user: TokenPayload, accounts: seq<Account>): (r: Reply<ProfileReply>)
    ensures r.status == 200 || r == Reply(404, ErrorBody(UserNotFound))
    ensures r.status == 404 <==> forall j :: 0 <= j < |accounts| ==> accounts[j].id != user.userId
    ensures r.status == 200 ==>
      exists j :: 0 <= j < |accounts| && accounts[j].id == user.userId
        && r.body == Payload(ProfileReply(AccessGranted, Profile(accounts[j].id, accounts[j].email, accounts[j].name)))
  {
    match FindById(accounts, user.userId)
    case None => Reply(404, ErrorBody(UserNotFound))
    case Some(i) =>
      Reply(200, Payload(ProfileReply(AccessGranted, Profile(accounts[i].id, accounts[i].email, accounts[i].name))))
  }
}

=== FILE: base.dfy ===
/** Small value types shared by every module of the model. */
module Base {

  /** A value that may be absent (a missing request field, an unset variable). */
  datatype Option<T> = None | Some(value: T)

  /** The outcome of code that may throw: either a value or the thrown error's message. */
  datatype Result<T> = Ok(value: T) | Err(message: string)

  /** JavaScript truthiness of an optional string: defined and non-empty. */
  predicate Truthy(v: Option<string>) { v.Some? && v.value != "" }

  function Min(a: int, b: int): (r: int) { if a <= b then a else b }

  function Max(a: int, b: int): (r: int) { if a >= b then a else b }

  function Abs(a: int): (r: nat) { if a >= 0 then a else -a }
}

=== FILE: claims.dfy ===
/**
 * The claims routes: a role-scoped, paged listing whose page and limit come
 * from `parseInt`; a single-claim read done as a filtered, paged query; and
 * creation with a per-policy claim number.
 */
module Claims {
  import opened Base
  import opened Text
  import opened Http
  import opened Schema
  import opened Rows
  import opened Access

  /** A stored claim (timestamps and relations left out). */
  datatype Claim = Claim(
    id: string,
    claimNumber: string,
    policyId: string,
    propertyId: string,
    userId: string,
    adjusterId: Option<string>,
    description: string,
    amount: real,
    incidentDate: string,
    status: string)

  const Draft: string := "DRAFT"
  const DefaultPage: int := 1
  const DefaultLimit: int := 20
  const MinDescription: nat := 10
  const NotFound: string := "Claim not found"

  predicate UniqueIds(claims: seq<Claim>) {
    forall i, j :: 0 <= i < j < |claims| ==> claims[i].id != claims[j].id
  }

  // ---------------------------------------------------------------- listing

  /** The raw `page` and `limit` query strings of `GET /api/claims`. */
  datatype ListQuery = ListQuery(page: Option<string>, limit: Option<string>)

  /** `parseInt(raw) || fallback`: NaN, 0 and -0 all fall back. */
  function IntOr(raw: Option<string>, fallback: int): (r: int)
    ensures fallback != 0 ==> r != 0
    ensures raw.None? ==> r == fallback
  {
    var v := if raw.None? then None else ParseInt(raw.value);
    if v.None? || v.value == 0 then fallback else v.value
  }

  /** A rendered positive number is taken as is. */
  lemma IntOrOfPositive(n: nat, fallback: int)
    requires n > 0
    ensures IntOr(Some(NatToString(n)), fallback) == n
  {
    ParseIntOfDecimal(n, "");
    assert NatToString(n) + "" == NatToString(n);
    IntOrOfParsed(NatToString(n), fallback);
  }

  /** A rendered negative number is taken as is too. */
  lemma IntOrOfNegative(n: nat, fallback: int)
    requires n > 0
    ensures IntOr(Some("-" + NatToString(n)), fallback) == -(n as int)
  {
    ParseIntOfNegativeDecimal(n);
    IntOrOfParsed("-" + NatToString(n), fallback);
  }

  /** A value `parseInt` reads as a non-zero number is taken as is. */
  lemma IntOrOfParsed(raw: string, fallback: int)
    requires ParseInt(raw).Some? && ParseInt(raw).value != 0
    ensures IntOr(Some(raw), fallback) == ParseInt(raw).value
  {
  }

  /** Any text `parseInt` reads as zero falls back to the default. */
  lemma IntOrOfZero(raw: string, fallback: int)
    requires ParseInt(raw) == Some(0)
    ensures IntOr(Some(raw), fallback) == fallback
  {
  }

  /**
   * A zero behind white space, with or without a sign and followed by
   * anything `parseInt` stops at (` 0`, `-0`, `+0 `, `0abc`), falls back to
   * the default.
   */
  lemma ZeroSpellingsFallBack(w: string, sign: string, rest: string, fallback: int)
    requires IsBlank(w)
    requires sign == "" || sign == "-" || sign == "+"
    requires rest == "" || (!IsDigit(rest[0], 10) && rest[0] != 'x' && rest[0] != 'X')
    ensures IntOr(Some(w + (sign + (NatToString(0) + rest))), fallback) == fallback
  {
    var t := sign + (NatToString(0) + rest);
    SignedZeroReadsAsZero(sign, rest);
    ParseIntSkipsLeadingSpace(w, t);
    IntOrOfZero(w + t, fallback);
  }

  /** `0`, `-0` or `+0`, followed by anything `parseInt` stops at, reads as zero. */
  lemma SignedZeroReadsAsZero(sign: string, rest: string)
    requires sign == "" || sign == "-" || sign == "+"
    requires rest == "" || (!IsDigit(rest[0], 10) && rest[0] != 'x' && rest[0] != 'X')
    ensures ParseInt(sign + (NatToString(0) + rest)) == Some(0)
  {
    if sign == "" {
      ParseIntOfDecimal(0, rest);
      assert sign + (NatToString(0) + rest) == NatToString(0) + rest;
    } else {
      ParseIntOfSignedDecimal(sign[0], 0, rest);
      assert sign == [sign[0]];
    }
  }

  /** Text without a digit (the empty string included) falls back to the default. */
  lemma IntOrWithoutDigits(junk: string, fallback: int)
    requires forall i :: 0 <= i < |junk| ==> !IsDigit(junk[i], 10)
    ensures IntOr(Some(junk), fallback) == fallback
  {
    ParseIntWithoutDigits(junk);
    IntOrOfNaN(junk, fallback);
  }

  /** Any text `parseInt` reads as NaN (`x1`, `-`, `abc1`) falls back to the default. */
  lemma IntOrOfNaN(raw: string, fallback: int)
    requires ParseInt(raw).None?
    ensures IntOr(Some(raw), fallback) == fallback
  {
  }

  /** Claim listing is restricted to the caller's own claims unless ADJUSTER or ADMIN. */
  function ListScope(caller: Caller): (owner: Option<string>) {
    OwnerScope(caller, SeesAllClaims(caller.role))
  }

  predicate InScope(owner: Option<string>, c: Claim) {
    owner.None? || c.userId == owner.value
  }

  /** The claims the caller's listing draws from, in table order. */
  function Visible(caller: Caller, claims: seq<Claim>): (visible: seq<Claim>) {
    Filter(claims, (c: Claim) => InScope(ListScope(caller), c))
  }

  datatype ClaimPage = ClaimPage(data: seq<Claim>, limit: int, total: int, pages: int)

  /**
   * `GET /api/claims`. Page and limit are `parseInt(...) || 1` and
   * `parseInt(...) || 20`; negative values pass through, so a negative skip
   * reaches the storage engine, which rejects it (500). Totals are computed
   * from the returned page alone.
   */
  function ListClaims(caller: Caller, q: ListQuery, claims: seq<Claim>): (r: Reply<ClaimPage>)
    ensures r.status == 200 || r == ServerError()
    ensures r.status == 200 <==> (IntOr(q.page, DefaultPage) - 1) * IntOr(q.limit, DefaultLimit) >= 0
    ensures r.status == 200 ==> r.body.Payload?
    ensures r.status == 200 ==>
      && r.body.value.limit == IntOr(q.limit, DefaultLimit) && r.body.value.limit != 0
      && |r.body.value.data| <= Abs(r.body.value.limit)
      && r.body.value.total == |r.body.value.data|
      && r.body.value.pages == CeilDiv(r.body.value.total, r.body.value.limit)
      && (r.body.value.limit > 0 ==> r.body.value.pages == (if r.body.value.data == [] then 0 else 1))
      && (r.body.value.limit < 0 ==> (r.body.value.pages == -1 || r.body.value.pages == 0))
    ensures r.status == 200 ==> forall i :: 0 <= i < |r.body.value.data| ==> r.body.value.data[i] in claims
    ensures r.status == 200 && !SeesAllClaims(caller.role) ==>
      forall i :: 0 <= i < |r.body.value.data| ==> r.body.value.data[i].userId == caller.userId
  {
    var page := IntOr(q.page, DefaultPage);
    var limit := IntOr(q.limit, DefaultLimit);
    var owner := ListScope(caller);
    var visible := Visible(caller, claims);
    match Window(visible, (page - 1) * limit, limit)
    case None => ServerError()
    case Some(data) =>
      WindowInside(visible, (page - 1) * limit, limit);
      PagesOfOnePage(|data|, limit);
      assert forall i :: 0 <= i < |data| ==> data[i] in visible && InScope(owner, data[i]);
      Reply(200, Payload(ClaimPage(data, limit, |data|, CeilDiv(|data|, limit))))
  }

  /**
   * A successful page is the window of the claims in scope that starts
   * `(page - 1) * limit` rows in and is `limit` rows long (counted from the end
   * for a negative limit); `Window`'s contract pins its length and positions.
   */
  lemma ListClaimsPaging(caller: Caller, q: ListQuery, claims: seq<Claim>)
    ensures var r := ListClaims(caller, q, claims);
      var skip := (IntOr(q.page, DefaultPage) - 1) * IntOr(q.limit, DefaultLimit);
      var w := Window(Visible(caller, claims), skip, IntOr(q.limit, DefaultLimit));
      r.status == 200 <==> w.Some?
    ensures var r := ListClaims(caller, q, claims);
      var skip := (IntOr(q.page, DefaultPage) - 1) * IntOr(q.limit, DefaultLimit);
      r.status == 200 ==> r.body.value.data == Window(Visible(caller, claims), skip, IntOr(q.limit, DefaultLimit)).value
  {
  }

  /** Without page and limit the listing is the first 20 claims in scope. */
  lemma ListClaimsDefaults(caller: Caller, claims: seq<Claim>)
    ensures var r := ListClaims(caller, ListQuery(None, None), claims);
      var visible := Visible(caller, claims);
      r.status == 200 && r.body.value.limit == 20
      && r.body.value.data == visible[..Min(20, |visible|)]
  {
  }

  /** A negative page with the default limit gives a negative skip, which fails. */
  lemma NegativePageFails(caller: Caller, n: nat, claims: seq<Claim>)
    requires n > 0
    ensures ListClaims(caller, ListQuery(Some("-" + NatToString(n)), None), claims) == ServerError()
  {
    IntOrOfNegative(n, DefaultPage);
  }

  /**
   * With `limit=-n` and at least `n` claims in scope, the page holds the last
   * `n` claims in scope and the reported page count is -1.
   */
  lemma NegativeLimitGivesNegativePages(caller: Caller, n: nat, claims: seq<Claim>)
    requires 0 < n <= |Visible(caller, claims)|
    ensures var r := ListClaims(caller, ListQuery(None, Some("-" + NatToString(n))), claims);
      var visible := Visible(caller, claims);
      && r.status == 200 && r.body.value.pages == -1
      && r.body.value.data == visible[|visible| - n..]
  {
    IntOrOfNegative(n, DefaultLimit);
    var visible := Visible(caller, claims);
    LastRowsPage(visible, n);
    var q := ListQuery(None, Some("-" + NatToString(n)));
    assert IntOr(q.page, DefaultPage) == 1;
    assert (IntOr(q.page, DefaultPage) - 1) * IntOr(q.limit, DefaultLimit) == 0;
  }

  /** A first page with limit `-n` over at least `n` rows is the last `n` rows, one page of them. */
  lemma LastRowsPage(visible: seq<Claim>, n: nat)
    requires 0 < n <= |visible|
    ensures Window(visible, 0, -(n as int)) == Some(visible[|visible| - n..])
    ensures CeilDiv(n, -(n as int)) == -1
  {
    assert visible[|visible| - n..|visible|] == visible[|visible| - n..];
    PagesOfOnePage(n, -(n as int));
  }

  // ----------------------------------------------------------- single read

  /** The raw query of `GET /api/claims/:id`. */
  datatype GetQuery = GetQuery(
    policyId: Option<string>,
    status: Option<string>,
    page: Option<QueryValue>,
    limit: Option<QueryValue>)

  datatype GetParams = GetParams(policyId: Option<string>, status: Option<string>, page: int, limit: int)

  /** `getClaimsSchema.parse(req.query)`. */
  function ParseGetQuery(f: Formats, q: GetQuery): (r: Parse<GetParams>)
    ensures r.Valid? ==> r.value.page > 0 && r.value.limit > 0
    ensures r.Valid? ==> r.value.policyId == q.policyId && r.value.status == q.status
    ensures r.Valid? && q.page.None? ==> r.value.page == DefaultPage
    ensures r.Valid? <==>
      && (q.policyId.None? || f.isUuid(q.policyId.value))
      && (q.status.None? || f.isClaimStatus(q.status.value))
      && PositiveInt(q.page, DefaultPage).Valid?
      && PositiveInt(q.limit, DefaultLimit).Valid?
    ensures r.Valid? ==>
      r.value.page == PositiveInt(q.page, DefaultPage).value && r.value.limit == PositiveInt(q.limit, DefaultLimit).value
  {
    match (OptionalMember(q.policyId, f.isUuid), OptionalMember(q.status, f.isClaimStatus),
           PositiveInt(q.page, DefaultPage), PositiveInt(q.limit, DefaultLimit))
    case (Valid(p), Valid(s), Valid(pg), Valid(l)) => Valid(GetParams(p, s, pg, l))
    case _ => Invalid
  }

  /** The `where` clause `{id, ...scope, policyId?, status?}`. */
  predicate MatchesGet(id: string, owner: Option<string>, params: GetParams, c: Claim) {
    && c.id == id
    && InScope(owner, c)
    && (params.policyId.Some? && params.policyId.value != "" ==> c.policyId == params.policyId.value)
    && (params.status.Some? && params.status.value != "" ==> c.status == params.status.value)
  }

  /**
   * `GET /api/claims/:id`. The lookup is a listing query narrowed to the id,
   * with the caller's scope, the optional filters and the page window; the
   * first row found is returned, none found is 404. There is no 403.
   */
  function GetClaim(f: Formats, caller: Caller, id: string, q: GetQuery, claims: seq<Claim>): (r: Reply<Claim>)
    ensures r.status == 200 || r.status == 404 || r.status == 500
    ensures r.status == 500 <==> ParseGetQuery(f, q).Invalid?
    ensures r.status == 500 ==> r == ServerError()
    ensures r.status == 404 ==> r.body == ErrorBody(NotFound)
    ensures r.status == 200 ==>
      && r.body.Payload? && r.body.value in claims && r.body.value.id == id
      && MatchesGet(id, ListScope(caller), ParseGetQuery(f, q).value, r.body.value)
  {
    match ParseGetQuery(f, q)
    case Invalid => ServerError()
    case Valid(params) =>
      var rows := PageOfMatches(id, ListScope(caller), params, claims);
      if |rows| == 0 then Reply(404, ErrorBody(NotFound))
      else Reply(200, Payload(rows[0]))
  }

  /** The rows `findMany` returns for the narrowed query: the matches, paged. */
  function PageOfMatches(id: string, owner: Option<string>, params: GetParams, claims: seq<Claim>)
    : (rows: seq<Claim>)
    requires params.page > 0 && params.limit > 0
    ensures forall i :: 0 <= i < |rows| ==> rows[i] in claims && MatchesGet(id, owner, params, rows[i])
  {
    var found := Filter(claims, (c: Claim) => MatchesGet(id, owner, params, c));
    assert (params.page - 1) * params.limit >= 0;
    WindowInside(found, (params.page - 1) * params.limit, params.limit);
    Window(found, (params.page - 1) * params.limit, params.limit).value
  }

  /**
   * Page and limit arrive as text while the schema wants numbers, so supplying
   * either makes reading a claim by id fail with 500.
   */
  lemma GetWithTextPagingFails(f: Formats, caller: Caller, id: string, q: GetQuery, claims: seq<Claim>)
    requires (q.page.Some? && q.page.value.QText?) || (q.limit.Some? && q.limit.value.QText?)
    ensures GetClaim(f, caller, id, q, claims) == ServerError()
  {
  }

  /** With unique ids, a page of 2 or more skips the only possible match: always 404. */
  lemma GetClaimLaterPageNotFound(f: Formats, caller: Caller, id: string, q: GetQuery, claims: seq<Claim>)
    requires UniqueIds(claims)
    requires ParseGetQuery(f, q).Valid? && ParseGetQuery(f, q).value.page >= 2
    ensures GetClaim(f, caller, id, q, claims) == Reply(404, ErrorBody(NotFound))
  {
    var params := ParseGetQuery(f, q).value;
    var owner := ListScope(caller);
    var p := (c: Claim) => MatchesGet(id, owner, params, c);
    var found := Filter(claims, p);
    AtMostOneMatch(claims, p, id);
    assert (params.page - 1) * params.limit >= params.limit;
    WindowPastEnd(found, (params.page - 1) * params.limit, params.limit);
  }

  /**
   * On the first page the lookup finds the claim with that id exactly when it
   * is in the caller's scope and passes the filters.
   */
  lemma GetClaimFirstPage(f: Formats, caller: Caller, k: nat, q: GetQuery, claims: seq<Claim>)
    requires UniqueIds(claims) && k < |claims|
    requires ParseGetQuery(f, q).Valid? && ParseGetQuery(f, q).value.page == 1
    ensures var r := GetClaim(f, caller, claims[k].id, q, claims);
      MatchesGet(claims[k].id, ListScope(caller), ParseGetQuery(f, q).value, claims[k])
      <==> r == Reply(200, Payload(claims[k]))
  {
    var params := ParseGetQuery(f, q).value;
    var owner := ListScope(caller);
    var id := claims[k].id;
    var p := (c: Claim) => MatchesGet(id, owner, params, c);
    if p(claims[k]) {
      FilterSingle(claims, p, k);
    } else {
      forall i | 0 <= i < |claims|
        ensures !p(claims[i])
      {
        if i != k {
          assert claims[i].id != id;
        }
      }
      FilterNone(claims, p);
    }
  }

  /** With unique ids, a predicate that pins the id selects at most one claim. */
  lemma AtMostOneMatch(claims: seq<Claim>, p: Claim -> bool, id: string)
    requires UniqueIds(claims)
    requires forall c :: p(c) ==> c.id == id
    ensures |Filter(claims, p)| <= 1
  {
    if k :| 0 <= k < |claims| && p(claims[k]) {
      forall i | 0 <= i < |claims| && i != k
        ensures !p(claims[i])
      {
        assert claims[i].id != claims[k].id;
      }
      FilterSingle(claims, p, k);
    } else {
      FilterNone(claims, p);
    }
  }

  // --------------------------------------------------------------- creation

  /** The body of `POST /api/claims` as received. */
  datatype ClaimInput = ClaimInput(
    policyId: Option<string>,
    propertyId: Option<string>,
    description: Option<string>,
    amount: Option<real>,
    incidentDate: Option<string>)

  /**
   * `createClaimSchema`: ids are uuids, the description has 10 or more UTF-16
   * code units, the amount is positive.
   */
  predicate ValidInput(f: Formats, b: ClaimInput) {
    && b.policyId.Some? && f.isUuid(b.policyId.value)
    && b.propertyId.Some? && f.isUuid(b.propertyId.value)
    && b.description.Some? && Utf16Length(b.description.value) >= MinDescription
    && b.amount.Some? && b.amount.value > 0.0
    && b.incidentDate.Some? && f.isDate(b.incidentDate.value)
  }

  /** `CLM-<policy>-<n>`. */
  function ClaimNumber(policyId: string, n: nat): (r: string) {
    Numbered("CLM-", policyId, n)
  }

  /** The number of claims already filed on the policy. */
  function ClaimCount(claims: seq<Claim>, policyId: string): (n: nat)
    ensures n <= |claims|
  {
    Count(claims, (c: Claim) => c.policyId == policyId)
  }

  function FindClaim(claims: seq<Claim>, id: string): (r: Option<nat>)
    ensures r.Some? ==> r.value < |claims| && claims[r.value].id == id
    ensures r.None? <==> forall j :: 0 <= j < |claims| ==> claims[j].id != id
  {
    FirstIndex(claims, (c: Claim) => c.id == id)
  }

  /**
   * `POST /api/claims`. An invalid body is refused with 400 and nothing is
   * written; a valid one is stored as a DRAFT claim of the caller, numbered
   * after the policy's current claim count. Whether the caller owns the policy
   * is not checked. `newId` is the generated id; a clash is a 500.
   */
  function CreateClaim(f: Formats, caller: Caller, b: ClaimInput, newId: string, claims: seq<Claim>)
    : (r: Step<Claim, seq<Claim>>)
    ensures !ValidInput(f, b) ==> r == Step(Reply(400, ErrorBody(InvalidBody)), claims)
    ensures ValidInput(f, b) && FindClaim(claims, newId).Some? ==> r == Step(ServerError(), claims)
    ensures r.reply.status == 201 <==> ValidInput(f, b) && FindClaim(claims, newId).None?
    ensures r.reply.status != 201 ==> r.state == claims
    ensures r.reply.status == 201 ==> r.reply.body.Payload? && r.state == claims + [r.reply.body.value]
    ensures r.reply.status == 201 ==>
      var c := r.reply.body.value;
      && c.id == newId && c.userId == caller.userId && c.status == Draft && c.adjusterId.None?
      && c.claimNumber == ClaimNumber(b.policyId.value, ClaimCount(claims, b.policyId.value) + 1)
      && Some(c.policyId) == b.policyId && Some(c.propertyId) == b.propertyId
      && Some(c.description) == b.description && Some(c.amount) == b.amount
      && Some(c.incidentDate) == b.incidentDate
  {
    if !ValidInput(f, b) then Step(Reply(400, ErrorBody(InvalidBody)), claims)
    else
      var number := ClaimNumber(b.policyId.value, ClaimCount(claims, b.policyId.value) + 1);
      var c := Claim(newId, number, b.policyId.value, b.propertyId.value, caller.userId, None,
                     b.description.value, b.amount.value, b.incidentDate.value, Draft);
      if FindClaim(claims, newId).Some? then Step(ServerError(), claims)
      else Step(Reply(201, Payload(c)), claims + [c])
  }

  /** Who the caller is never decides whether a claim is accepted: no ownership check. */
  lemma CreateClaimIgnoresOwnership(f: Formats, c1: Caller, c2: Caller, b: ClaimInput, newId: string, claims: seq<Claim>)
    ensures CreateClaim(f, c1, b, newId, claims).reply.status == CreateClaim(f, c2, b, newId, claims).reply.status
  {
  }

}

=== FILE: data_route.dfy ===
/**
 * The data listing route: an optional case-insensitive name search, then
 * `skip`/`take` paging with both numbers read by JavaScript `Number` from
 * the query string, defaulting to limit "10" and offset "10".
 */
module DataRoute {
  import opened Base
  import opened Http
  import opened Text
  import opened Rows

  datatype DataRow = DataRow(id: int, name: string)

  /** The raw query parameters; a missing one takes its default. */
  datatype DataQuery = DataQuery(limit: Option<string>, offset: Option<string>, search: Option<string>)

  /** `{ success: true, data }` or `{ success: false, message }`. */
  datatype DataBody = Fetched(data: seq<DataRow>) | FetchFailed(message: string)

  const DefaultLimit: string := "10"
  const DefaultOffset: string := "10"
  const DefaultSearch: string := ""
  const FailedToFetch: string := "Failed to fetch data"

  function OrDefault(v: Option<string>, default: string): (r: string)
    ensures v.Some? ==> r == v.value
    ensures v.None? ==> r == default
  {
    match v
    case Some(s) => s
    case None => default
  }

  /** The name filter: none for an empty search, a case-insensitive substring match otherwise. */
  function Selected(rows: seq<DataRow>, search: string): (r: seq<DataRow>)
    ensures |r| <= |rows|
    ensures forall i :: 0 <= i < |r| ==> r[i] in rows
  {
    if search == "" then rows else Filter(rows, (row: DataRow) => ContainsIgnoringCase(row.name, search))
  }

  /**
   * The search keeps exactly the rows whose name contains it, ignoring case,
   * and an empty search keeps the table as it is.
   */
  lemma SelectedExact(rows: seq<DataRow>, search: string)
    ensures search == "" ==> Selected(rows, search) == rows
    ensures forall i :: 0 <= i < |Selected(rows, search)| ==>
      Selected(rows, search)[i] in rows && ContainsIgnoringCase(Selected(rows, search)[i].name, search)
    ensures forall i :: 0 <= i < |rows| && ContainsIgnoringCase(rows[i].name, search) ==>
      rows[i] in Selected(rows, search)
  {
    if search == "" {
      forall i | 0 <= i < |rows|
        ensures ContainsIgnoringCase(rows[i].name, search)
      {
        assert LowerAll(search) == "";
        assert StartsWith(LowerAll(rows[i].name), LowerAll(search));
      }
    }
  }

  /** A row named exactly as the search always survives the filter. */
  lemma SelectedKeepsExactName(rows: seq<DataRow>, search: string, k: nat)
    requires k < |rows| && rows[k].name == search
    ensures rows[k] in Selected(rows, search)
  {
    ContainsIgnoringCaseReflexive(search);
    SelectedExact(rows, search);
  }

  /** `GET /data`. */
  function ListData(q: DataQuery, rows: seq<DataRow>): (r: Reply<DataBody>)
    ensures var skip := JsNumber(OrDefault(q.offset, DefaultOffset));
      var take := JsNumber(OrDefault(q.limit, DefaultLimit));
      && (r.status == 200 <==> skip.Some? && take.Some? && skip.value >= 0)
      && (r.status != 200 ==> r == Reply(500, Payload(FetchFailed(FailedToFetch))))
      && (r.status == 200 ==> r.body.Payload? && r.body.value.Fetched?)
  {
    var search := OrDefault(q.search, DefaultSearch);
    var skip := JsNumber(OrDefault(q.offset, DefaultOffset));
    var take := JsNumber(OrDefault(q.limit, DefaultLimit));
    if skip.None? || take.None? then Reply(500, Payload(FetchFailed(FailedToFetch)))
    else
      match Window(Selected(rows, search), skip.value, take.value)
      case None => Reply(500, Payload(FetchFailed(FailedToFetch)))
      case Some(data) => Reply(200, Payload(Fetched(data)))
  }

  /**
   * What a successful listing holds: at most `|limit|` rows, each a row of
   * the table whose name matches the search, and for a non-negative limit
   * exactly the matching rows from position `offset` on, in table order.
   */
  lemma ListDataContents(q: DataQuery, rows: seq<DataRow>)
    requires ListData(q, rows).status == 200
    ensures var search := OrDefault(q.search, DefaultSearch);
      var skip := JsNumber(OrDefault(q.offset, DefaultOffset)).value;
      var take := JsNumber(OrDefault(q.limit, DefaultLimit)).value;
      var data := ListData(q, rows).body.value.data;
      var matching := Selected(rows, search);
      && |data| == Min(Abs(take), Max(0, |matching| - skip))
      && (forall i :: 0 <= i < |data| ==> data[i] in rows && ContainsIgnoringCase(data[i].name, search))
      && (take >= 0 ==> forall i :: 0 <= i < |data| ==> data[i] == matching[skip + i])
  {
    var search := OrDefault(q.search, DefaultSearch);
    var skip := JsNumber(OrDefault(q.offset, DefaultOffset)).value;
    var take := JsNumber(OrDefault(q.limit, DefaultLimit)).value;
    var data := ListData(q, rows).body.value.data;
    assert Window(Selected(rows, search), skip, take) == Some(data);
    PageOfSelected(rows, search, skip, take, data);
  }

  /** Every row of a page of the search result is a matching row of the table. */
  lemma PageOfSelected(rows: seq<DataRow>, search: string, skip: int, take: int, data: seq<DataRow>)
    requires Window(Selected(rows, search), skip, take) == Some(data)
    ensures forall i :: 0 <= i < |data| ==> data[i] in rows && ContainsIgnoringCase(data[i].name, search)
  {
    var matching := Selected(rows, search);
    SelectedExact(rows, search);
    forall i | 0 <= i < |data|
      ensures data[i] in rows && ContainsIgnoringCase(data[i].name, search)
    {
      var k := if take >= 0 then skip + i else |matching| - skip - |data| + i;
      assert data[i] == matching[k];
    }
  }

  /**
   * With no query parameters at all, the defaults skip the first ten rows and
   * return the next ten.
   */
  lemma ListDataDefaults(rows: seq<DataRow>)
    ensures ListData(DataQuery(None, None, None), rows)
      == Reply(200, Payload(Fetched(rows[Min(10, |rows|)..Min(20, |rows|)])))
  {
    var q := DataQuery(None, None, None);
    assert OrDefault(q.offset, DefaultOffset) == DefaultOffset;
    assert OrDefault(q.limit, DefaultLimit) == DefaultLimit;
    assert OrDefault(q.search, DefaultSearch) == DefaultSearch;
    NumberOfDefault();
    assert Selected(rows, DefaultSearch) == rows;
    assert Window(rows, 10, 10) == Some(rows[Min(10, |rows|)..Min(20, |rows|)]);
  }

  /** Both numeric defaults read as ten. */
  lemma NumberOfDefault()
    ensures JsNumber(DefaultOffset) == Some(10) && JsNumber(DefaultLimit) == Some(10)
  {
    assert NatToString(10) == DefaultOffset;
    JsNumberOfDecimal(10);
  }

  /** A negative offset is refused by the storage engine and answered with 500. */
  lemma NegativeOffsetFails(d: string, q: DataQuery, rows: seq<DataRow>)
    requires |d| > 0 && AllDigits(d, 10) && DigitsValue(d, 10) > 0 && q.offset == Some("-" + d)
    ensures ListData(q, rows) == Reply(500, Payload(FetchFailed(FailedToFetch)))
  {
    NumberOfNegativeDigits(d);
  }
}

=== FILE: env_config.dfy ===
/**
 * Start-up configuration from the process environment, in the two diverging
 * versions of `getEnvVar`: the one that throws whenever the variable is unset
 * or empty, and the one that honours a default.
 */
module EnvConfig {
  import opened Base

  /** The process environment: a variable that is not a key is undefined. */
  type Env = map<string, string>

  const Production: string := "production"

  /** The value of a variable, `None` when undefined. */
  function Lookup(env: Env, key: string): (r: Option<string>) {
    if key in env then Some(env[key]) else None
  }

  function NotSetMessage(key: string): (message: string) {
    "Environment variable " + key + " is not set"
  }

  function NotSetInProductionMessage(key: string): (message: string) {
    "Environment variable " + key + " is not set in production"
  }

  /** The configuration the server module exports. */
  datatype Config = Config(port: string, host: string, jwtSecret: string, databaseUrl: string)

  // ------------------------------------------------------ throwing version

  /**
   * `getEnvVar` of the api-server: an unset or empty variable throws before
   * the default is ever looked at; the production test that follows can only
   * be reached with a defined value, so it never throws.
   */
  function GetEnvVarStrict(env: Env, key: string, defaultValue: Option<string>): (r: Result<string>)
    ensures Truthy(Lookup(env, key)) ==> r == Ok(env[key])
    ensures !Truthy(Lookup(env, key)) ==> r == Err(NotSetMessage(key))
    ensures r != Err(NotSetInProductionMessage(key))
  {
    var value := Lookup(env, key);
    assert |NotSetMessage(key)| < |NotSetInProductionMessage(key)|;
    if !Truthy(value) then Err(NotSetMessage(key))
    else if Lookup(env, "NODE_ENV") == Some(Production) && !Truthy(defaultValue) && value.None? then
      Err(NotSetInProductionMessage(key))
    else Ok(value.value)
  }

  /** The default argument never changes the strict version's outcome. */
  lemma StrictIgnoresDefault(env: Env, key: string, d1: Option<string>, d2: Option<string>)
    ensures GetEnvVarStrict(env, key, d1) == GetEnvVarStrict(env, key, d2)
  {
  }

  /**
   * The module-level exports of the strict version, evaluated in order: the
   * first variable that throws aborts loading with its message.
   */
  function LoadStrict(env: Env): (r: Result<Config>)
    ensures r.Ok? <==>
      Truthy(Lookup(env, "PORT")) && Truthy(Lookup(env, "HOST"))
      && Truthy(Lookup(env, "JWT_SECRET")) && Truthy(Lookup(env, "DATABASE_URL"))
    ensures r.Ok? ==> r.value == Config(env["PORT"], env["HOST"], env["JWT_SECRET"], env["DATABASE_URL"])
    ensures !Truthy(Lookup(env, "PORT")) ==> r == Err(NotSetMessage("PORT"))
  {
    match GetEnvVarStrict(env, "PORT", Some("3000"))
    case Err(m) => Err(m)
    case Ok(port) =>
      match GetEnvVarStrict(env, "HOST", Some("localhost"))
      case Err(m) => Err(m)
      case Ok(host) =>
        match GetEnvVarStrict(env, "JWT_SECRET", None)
        case Err(m) => Err(m)
        case Ok(secret) =>
          match GetEnvVarStrict(env, "DATABASE_URL", None)
          case Err(m) => Err(m)
          case Ok(url) => Ok(Config(port, host, secret, url))
  }

  // ---------------------------------------------------- default-honouring

  /**
   * `getEnvVar` of the toolkit copy: a non-empty value wins, then a non-empty
   * default; with neither it throws, with a message that only depends on
   * whether NODE_ENV is "production".
   */
  function GetEnvVarLenient(env: Env, key: string, defaultValue: Option<string>): (r: Result<string>)
    ensures Truthy(Lookup(env, key)) ==> r == Ok(env[key])
    ensures !Truthy(Lookup(env, key)) && Truthy(defaultValue) ==> r == Ok(defaultValue.value)
    ensures r.Err? <==> !Truthy(Lookup(env, key)) && !Truthy(defaultValue)
    ensures r.Err? ==> r.message == (if Lookup(env, "NODE_ENV") == Some(Production)
                                     then NotSetInProductionMessage(key) else NotSetMessage(key))
  {
    var value := Lookup(env, key);
    if Truthy(value) then Ok(value.value)
    else if Truthy(defaultValue) then Ok(defaultValue.value)
    else if Lookup(env, "NODE_ENV") == Some(Production) then Err(NotSetInProductionMessage(key))
    else Err(NotSetMessage(key))
  }

  /** The module-level exports of the default-honouring version. */
  function LoadLenient(env: Env): (r: Result<Config>)
    ensures r.Ok? <==> Truthy(Lookup(env, "JWT_SECRET")) && Truthy(Lookup(env, "DATABASE_URL"))
    ensures r.Ok? ==> r.value.port == (if Truthy(Lookup(env, "PORT")) then env["PORT"] else "3000")
    ensures r.Ok? ==> r.value.host == (if Truthy(Lookup(env, "HOST")) then env["HOST"] else "localhost")
    ensures r.Ok? ==> r.value.jwtSecret == env["JWT_SECRET"] && r.value.databaseUrl == env["DATABASE_URL"]
  {
    match GetEnvVarLenient(env, "PORT", Some("3000"))
    case Err(m) => Err(m)
    case Ok(port) =>
      match GetEnvVarLenient(env, "HOST", Some("localhost"))
      case Err(m) => Err(m)
      case Ok(host) =>
        match GetEnvVarLenient(env, "JWT_SECRET", None)
        case Err(m) => Err(m)
        case Ok(secret) =>
          match GetEnvVarLenient(env, "DATABASE_URL", None)
          case Err(m) => Err(m)
          case Ok(url) => Ok(Config(port, host, secret, url))
  }

  /**
   * Wherever the default-honouring version loads, the strict one loads too
   * only if PORT and HOST are set; where both load they agree.
   */
  lemma StrictLoadsImpliesLenientAgrees(env: Env)
    ensures LoadStrict(env).Ok? ==> LoadLenient(env) == LoadStrict(env)
    ensures LoadLenient(env).Ok? && !Truthy(Lookup(env, "PORT")) ==> LoadStrict(env).Err?
  {
  }
}

=== FILE: http.dfy ===
/** The part of an HTTP exchange a handler decides: a status code and a JSON body. */
module Http {

  /** A JSON body: the resource itself, `{error: ...}`, or `{message: ...}`. */
  datatype Body<T> = Payload(value: T) | ErrorBody(error: string) | MessageBody(message: string)

  datatype Reply<T> = Reply(status: int, body: Body<T>)

  /** A handler that may write: its reply together with the table after the request. */
  datatype Step<T, S> = Step(reply: Reply<T>, state: S)

  const InternalError: string := "Internal server error"
  const InvalidBody: string := "Invalid request body"

  /** The reply every `catch` block of the resource routes sends. */
  function ServerError<T>(): (r: Reply<T>) { Reply(500, ErrorBody(InternalError)) }
}

=== FILE: pipeline.dfy ===
/**
 * The request path as mounted: the authentication middleware runs first and
 * hands the routes the decoded token as `req.user`. The token carries an id
 * and an e-mail but no role, so every route sees a caller without a role.
 */
module Pipeline {
  import opened Base
  import opened Http
  import opened Access
  import opened AuthMiddleware
  import AuthRoutes
  import Policies
  import Claims
  import Schema

  /** The caller a route sees behind the middleware. */
  function CallerOf(u: TokenPayload): (c: Caller)
    ensures c.userId == u.userId
    ensures !SeesAllPolicies(c.role) && !SeesAllClaims(c.role)
    ensures forall owner: string :: MayTouchPolicy(c, owner) <==> owner == u.userId
  {
    Caller(u.userId, None)
  }

  /**
   * Behind the middleware, the policy and claim listings hold only the
   * authenticated user's own records, whatever role the user has in the database.
   */
  lemma AuthenticatedListingsAreOwn(header: Option<string>, verify: string -> Option<TokenPayload>,
                                    f: Schema.Formats, pq: Policies.ListQuery, policies: seq<Policies.Policy>,
                                    cq: Claims.ListQuery, claims: seq<Claims.Claim>)
    requires Authenticate(header, verify).user.Some?
    ensures var u := Authenticate(header, verify).user.value;
      var r := Policies.ListPolicies(f, CallerOf(u), pq, policies);
      r.status == 200 ==> forall i :: 0 <= i < |r.body.value.data| ==> r.body.value.data[i].userId == u.userId
    ensures var u := Authenticate(header, verify).user.value;
      var r := Claims.ListClaims(CallerOf(u), cq, claims);
      r.status == 200 ==> forall i :: 0 <= i < |r.body.value.data| ==> r.body.value.data[i].userId == u.userId
  {
  }

  /**
   * Behind the middleware, another owner's policy can be neither read nor
   * updated: the read is refused with 403, and so is any valid update.
   */
  lemma AuthenticatedCannotTouchOthersPolicy(u: TokenPayload, f: Schema.Formats, k: nat,
                                             x: Policies.PolicyPatch, store: seq<Policies.Policy>)
    requires Policies.UniqueIds(store)
    requires k < |store| && store[k].userId != u.userId
    ensures Policies.GetPolicy(CallerOf(u), store[k].id, store) == Reply(403, ErrorBody(Policies.ViewForbidden))
    ensures Policies.ValidPatch(f, x) ==>
      Policies.UpdatePolicy(f, CallerOf(u), store[k].id, x, store)
      == Step(Reply(403, ErrorBody(Policies.UpdateForbidden)), store)
  {
    Policies.FindPolicyAt(store, k);
  }

  /**
   * A successful login yields a token that the middleware accepts when it is
   * sent back as `Bearer <token>`, and the identity it attaches is the one the
   * token was signed for — provided verification inverts signing and the
   * signed token is one space-free word.
   */
  lemma LoginThenAuthenticate(compare: (string, string) -> bool, sign: (TokenPayload, string) -> string,
                              verify: string -> Option<TokenPayload>, b: AuthRoutes.LoginBody,
                              accounts: seq<AuthRoutes.Account>)
    requires AuthRoutes.Login(compare, sign, b, accounts).status == 200
    requires forall p: TokenPayload :: verify(sign(p, AuthRoutes.ExpiresIn)) == Some(p)
    requires var token := AuthRoutes.Login(compare, sign, b, accounts).body.value.token;
      token != "" && ' ' !in token
    ensures var a := accounts[AuthRoutes.FindByEmail(accounts, b.email.value).value];
      var token := AuthRoutes.Login(compare, sign, b, accounts).body.value.token;
      Authenticate(Some("Bearer " + token), verify) == Gate(None, Some(TokenPayload(a.id, a.email)), 1)
  {
    var token := AuthRoutes.Login(compare, sign, b, accounts).body.value.token;
    BearerTokenOfHeader("Bearer", token, "");
    assert "Bearer" + " " + token + "" == "Bearer " + token;
  }
}

=== FILE: policies.dfy ===
/**
 * The policies routes: a role-scoped, filtered and paged listing; creation
 * with a per-owner policy number; a single-policy read and a partial update,
 * both gated on ownership or the ADMIN role.
 */
module Policies {
  import opened Base
  import opened Text
  import opened Http
  import opened Schema
  import opened Rows
  import opened Access

  /** A stored policy (timestamps and relations left out). */
  datatype Policy = Policy(
    id: string,
    policyNumber: string,
    userId: string,
    propertyType: string,
    status: string,
    premium: real,
    coverageAmount: real,
    deductible: real,
    startDate: string,
    endDate: string)

  const Active: string := "ACTIVE"
  const DefaultPage: int := 1
  const DefaultLimit: int := 20
  const NotFound: string := "Policy not found"
  const ViewForbidden: string := "Unauthorized to view this policy"
  const UpdateForbidden: string := "Unauthorized to update this policy"

  /** The primary-key invariant of the table. */
  predicate UniqueIds(store: seq<Policy>) {
    forall i, j :: 0 <= i < j < |store| ==> store[i].id != store[j].id
  }

  /** `findUnique({where: {id}})`: the position of the policy with that id. */
  function FindPolicy(store: seq<Policy>, id: string): (r: Option<nat>)
    ensures r.Some? ==> r.value < |store| && store[r.value].id == id
    ensures r.None? <==> forall j :: 0 <= j < |store| ==> store[j].id != id
  {
    FirstIndex(store, (p: Policy) => p.id == id)
  }

  /** With unique ids, the policy at a position is the one found by its id. */
  lemma FindPolicyAt(store: seq<Policy>, i: nat)
    requires UniqueIds(store) && i < |store|
    ensures FindPolicy(store, store[i].id) == Some(i)
  {
    var r := FirstIndex(store, (p: Policy) => p.id == store[i].id);
    assert r.Some? && r.value <= i;
  }

  // ---------------------------------------------------------------- listing

  /** The raw query of `GET /api/policies`. */
  datatype ListQuery = ListQuery(
    status: Option<string>,
    propertyType: Option<string>,
    page: Option<QueryValue>,
    limit: Option<QueryValue>)

  datatype ListParams = ListParams(status: Option<string>, propertyType: Option<string>, page: int, limit: int)

  /** `getPoliciesSchema.parse(req.query)`. */
  function ParseListQuery(f: Formats, q: ListQuery): (r: Parse<ListParams>)
    ensures r.Valid? ==> r.value.page > 0 && r.value.limit > 0
    ensures r.Valid? ==> r.value.status == q.status && r.value.propertyType == q.propertyType
    ensures q.page.None? && q.limit.None? && r.Valid? ==> r.value.page == DefaultPage && r.value.limit == DefaultLimit
    ensures r.Valid? <==>
      && (q.status.None? || f.isPolicyStatus(q.status.value))
      && (q.propertyType.None? || f.isPropertyType(q.propertyType.value))
      && PositiveInt(q.page, DefaultPage).Valid?
      && PositiveInt(q.limit, DefaultLimit).Valid?
    ensures r.Valid? ==>
      r.value.page == PositiveInt(q.page, DefaultPage).value && r.value.limit == PositiveInt(q.limit, DefaultLimit).value
  {
    match (OptionalMember(q.status, f.isPolicyStatus), OptionalMember(q.propertyType, f.isPropertyType),
           PositiveInt(q.page, DefaultPage), PositiveInt(q.limit, DefaultLimit))
    case (Valid(s), Valid(t), Valid(p), Valid(l)) => Valid(ListParams(s, t, p, l))
    case _ => Invalid
  }

  /**
   * The query parser delivers text, and the schema wants a number: supplying
   * page or limit at all makes the parse throw, which the route answers with 500.
   */
  lemma ListWithTextPagingFails(f: Formats, caller: Caller, q: ListQuery, store: seq<Policy>)
    requires (q.page.Some? && q.page.value.QText?) || (q.limit.Some? && q.limit.value.QText?)
    ensures ListPolicies(f, caller, q, store) == ServerError()
  {
  }

  /** The `where` clause of a listing: an owner restriction and two optional filters. */
  datatype PolicyWhere = PolicyWhere(owner: Option<string>, status: Option<string>, propertyType: Option<string>)

  /** A filter value is applied only when it is truthy. */
  function IfTruthy(v: Option<string>): (r: Option<string>) {
    if v.Some? && v.value != "" then v else None
  }

  function ListWhere(caller: Caller, status: Option<string>, propertyType: Option<string>): (w: PolicyWhere) {
    PolicyWhere(OwnerScope(caller, SeesAllPolicies(caller.role)), IfTruthy(status), IfTruthy(propertyType))
  }

  predicate Matches(w: PolicyWhere, p: Policy) {
    && (w.owner.Some? ==> p.userId == w.owner.value)
    && (w.status.Some? ==> p.status == w.status.value)
    && (w.propertyType.Some? ==> p.propertyType == w.propertyType.value)
  }

  /** The policies the `where` clause selects, in table order. */
  function Matching(store: seq<Policy>, w: PolicyWhere): (r: seq<Policy>) {
    Filter(store, (p: Policy) => Matches(w, p))
  }

  /** The list envelope: a page of data, the limit, and totals. */
  datatype PolicyPage = PolicyPage(data: seq<Policy>, limit: int, total: int, pages: int)

  /**
   * `GET /api/policies`. A query the schema rejects throws inside the try
   * block and becomes a 500. Otherwise the page is the `limit` matching
   * policies after skipping `(page - 1) * limit`, and the totals are computed
   * from that page alone.
   */
  function ListPolicies(f: Formats, caller: Caller, q: ListQuery, store: seq<Policy>): (r: Reply<PolicyPage>)
    ensures r.status == 200 <==> ParseListQuery(f, q).Valid?
    ensures r.status != 200 ==> r == ServerError()
    ensures r.status == 200 ==> r.body.Payload?
    ensures r.status == 200 ==>
      && 0 < r.body.value.limit
      && |r.body.value.data| <= r.body.value.limit
      && r.body.value.total == |r.body.value.data|
      && (r.body.value.pages == 0 <==> r.body.value.data == [])
      && (r.body.value.data != [] ==> r.body.value.pages == 1)
    ensures r.status == 200 ==> forall i :: 0 <= i < |r.body.value.data| ==> r.body.value.data[i] in store
    ensures r.status == 200 && !SeesAllPolicies(caller.role) ==>
      forall i :: 0 <= i < |r.body.value.data| ==> r.body.value.data[i].userId == caller.userId
    ensures r.status == 200 && IfTruthy(q.status).Some? ==>
      forall i :: 0 <= i < |r.body.value.data| ==> r.body.value.data[i].status == q.status.value
    ensures r.status == 200 && IfTruthy(q.propertyType).Some? ==>
      forall i :: 0 <= i < |r.body.value.data| ==> r.body.value.data[i].propertyType == q.propertyType.value
  {
    match ParseListQuery(f, q)
    case Invalid => ServerError()
    case Valid(params) =>
      var w := ListWhere(caller, params.status, params.propertyType);
      var skip := (params.page - 1) * params.limit;
      assert skip >= 0;
      var matching := Matching(store, w);
      var data := Window(matching, skip, params.limit).value;
      WindowInside(matching, skip, params.limit);
      PagesOfOnePage(|data|, params.limit);
      assert forall i :: 0 <= i < |data| ==> data[i] in matching && Matches(w, data[i]);
      Reply(200, Payload(PolicyPage(data, params.limit, |data|, CeilDiv(|data|, params.limit))))
  }

  /** The page is the run of matching policies that starts at `(page - 1) * limit`. */
  lemma ListPoliciesPaging(f: Formats, caller: Caller, q: ListQuery, store: seq<Policy>)
    requires ParseListQuery(f, q).Valid?
    ensures var params := ParseListQuery(f, q).value;
      var matching := Matching(store, ListWhere(caller, params.status, params.propertyType));
      var data := ListPolicies(f, caller, q, store).body.value.data;
      && |data| == Min(params.limit, Max(0, |matching| - (params.page - 1) * params.limit))
      && forall i :: 0 <= i < |data| ==> data[i] == matching[(params.page - 1) * params.limit + i]
  {
    var params := ParseListQuery(f, q).value;
    assert (params.page - 1) * params.limit >= 0;
  }

  /**
   * ADJUSTER and AGENT see another owner's policy in the listing, yet reading
   * that same policy by id is refused with 403.
   */
  lemma ListShowsWhatGetRefuses(f: Formats, caller: Caller, store: seq<Policy>)
    requires UniqueIds(store) && |store| > 0
    requires caller.role == Some(Adjuster) || caller.role == Some(Agent)
    requires store[0].userId != caller.userId
    ensures var r := ListPolicies(f, caller, ListQuery(None, None, None, None), store);
      r.status == 200 && store[0] in r.body.value.data
    ensures GetPolicy(caller, store[0].id, store) == Reply(403, ErrorBody(ViewForbidden))
  {
    var w := ListWhere(caller, None, None);
    FilterAll(store, (p: Policy) => Matches(w, p));
    var data := ListPolicies(f, caller, ListQuery(None, None, None, None), store).body.value.data;
    ListPoliciesPaging(f, caller, ListQuery(None, None, None, None), store);
    assert data[0] == store[0];
    FindPolicyAt(store, 0);
  }

  // --------------------------------------------------------------- creation

  /** The body of `POST /api/policies` as received (absent fields are `None`). */
  datatype PolicyInput = PolicyInput(
    propertyType: Option<string>,
    startDate: Option<string>,
    endDate: Option<string>,
    premium: Option<real>,
    coverageAmount: Option<real>,
    deductible: Option<real>,
    propertyId: Option<string>)

  /** `createPolicySchema`: every field present, amounts positive, formats valid. */
  predicate ValidInput(f: Formats, b: PolicyInput) {
    && b.propertyType.Some? && f.isPropertyType(b.propertyType.value)
    && b.startDate.Some? && f.isDate(b.startDate.value)
    && b.endDate.Some? && f.isDate(b.endDate.value)
    && b.premium.Some? && b.premium.value > 0.0
    && b.coverageAmount.Some? && b.coverageAmount.value > 0.0
    && b.deductible.Some? && b.deductible.value > 0.0
    && b.propertyId.Some? && f.isUuid(b.propertyId.value)
  }

  /** `POL-<owner>-<n>`. */
  function PolicyNumber(userId: string, n: nat): (r: string) {
    Numbered("POL-", userId, n)
  }

  /** The number of policies the owner already has (`count({where: {userId}})`). */
  function OwnedCount(store: seq<Policy>, userId: string): (n: nat)
    ensures n <= |store|
  {
    Count(store, (p: Policy) => p.userId == userId)
  }

  /**
   * `POST /api/policies`. An invalid body is refused with 400 before anything
   * else; a valid one is stored as an ACTIVE policy of the caller, numbered
   * after the caller's current policy count. The property id is validated but
   * not stored. `newId` is the id the database generates; a clash with an
   * existing id is a unique-constraint failure (500).
   */
  function CreatePolicy(f: Formats, caller: Caller, b: PolicyInput, newId: string, store: seq<Policy>)
    : (r: Step<Policy, seq<Policy>>)
    ensures !ValidInput(f, b) ==> r == Step(Reply(400, ErrorBody(InvalidBody)), store)
    ensures ValidInput(f, b) && FindPolicy(store, newId).Some? ==> r == Step(ServerError(), store)
    ensures r.reply.status == 201 <==> ValidInput(f, b) && FindPolicy(store, newId).None?
    ensures r.reply.status == 201 ==> r.reply.body.Payload? && r.state == store + [r.reply.body.value]
    ensures r.reply.status == 201 ==>
      var p := r.reply.body.value;
      && p.id == newId && p.userId == caller.userId && p.status == Active
      && p.policyNumber == PolicyNumber(caller.userId, OwnedCount(store, caller.userId) + 1)
      && Some(p.propertyType) == b.propertyType && Some(p.startDate) == b.startDate
      && Some(p.endDate) == b.endDate && Some(p.premium) == b.premium
      && Some(p.coverageAmount) == b.coverageAmount && Some(p.deductible) == b.deductible
  {
    if !ValidInput(f, b) then Step(Reply(400, ErrorBody(InvalidBody)), store)
    else
      var number := PolicyNumber(caller.userId, OwnedCount(store, caller.userId) + 1);
      var p := Policy(newId, number, caller.userId, b.propertyType.value, Active, b.premium.value,
                      b.coverageAmount.value, b.deductible.value, b.startDate.value, b.endDate.value);
      if FindPolicy(store, newId).Some? then Step(ServerError(), store)
      else Step(Reply(201, Payload(p)), store + [p])
  }

  /** Creation keeps the primary key unique. */
  lemma CreateKeepsUniqueIds(f: Formats, caller: Caller, b: PolicyInput, newId: string, store: seq<Policy>)
    requires UniqueIds(store)
    ensures UniqueIds(CreatePolicy(f, caller, b, newId, store).state)
  {
  }

  /**
   * Two successful creations in a row by the same caller get different
   * policy numbers: the count they are built from has gone up by one.
   */
  lemma SuccessiveCreatesDiffer(f: Formats, caller: Caller, b1: PolicyInput, id1: string,
                                b2: PolicyInput, id2: string, store: seq<Policy>)
    requires CreatePolicy(f, caller, b1, id1, store).reply.status == 201
    requires CreatePolicy(f, caller, b2, id2, CreatePolicy(f, caller, b1, id1, store).state).reply.status == 201
    ensures var s1 := CreatePolicy(f, caller, b1, id1, store);
      var s2 := CreatePolicy(f, caller, b2, id2, s1.state);
      s1.reply.body.value.policyNumber != s2.reply.body.value.policyNumber
  {
    var s1 := CreatePolicy(f, caller, b1, id1, store);
    var p := s1.reply.body.value;
    CountAppend(store, p, (q: Policy) => q.userId == caller.userId);
    var k := OwnedCount(store, caller.userId);
    assert OwnedCount(s1.state, caller.userId) == k + 1;
    if PolicyNumber(caller.userId, k + 1) == PolicyNumber(caller.userId, k + 2) {
      NumberedInjective("POL-", caller.userId, k + 1, caller.userId, k + 2);
    }
  }

  // ----------------------------------------------------------- single read

  /**
   * `GET /api/policies/:id`: 404 when there is no such policy, 403 unless the
   * caller owns it or is ADMIN (ADJUSTER and AGENT included), else the policy.
   */
  function GetPolicy(caller: Caller, id: string, store: seq<Policy>): (r: Reply<Policy>)
    ensures r.status == 200 || r.status == 403 || r.status == 404
    ensures r.status == 404 <==> forall j :: 0 <= j < |store| ==> store[j].id != id
    ensures r.status == 404 ==> r.body == ErrorBody(NotFound)
    ensures r.status == 403 <==>
      FindPolicy(store, id).Some? && !MayTouchPolicy(caller, store[FindPolicy(store, id).value].userId)
    ensures r.status == 403 ==> r.body == ErrorBody(ViewForbidden)
    ensures r.status == 200 ==>
      r.body.Payload? && r.body.value in store && r.body.value.id == id
      && MayTouchPolicy(caller, r.body.value.userId)
  {
    match FindPolicy(store, id)
    case None => Reply(404, ErrorBody(NotFound))
    case Some(i) =>
      if !MayTouchPolicy(caller, store[i].userId) then Reply(403, ErrorBody(ViewForbidden))
      else Reply(200, Payload(store[i]))
  }

  // ---------------------------------------------------------------- update

  /** The body of `PUT /api/policies/:id`: every field optional; others are stripped. */
  datatype PolicyPatch = PolicyPatch(
    propertyType: Option<string>,
    startDate: Option<string>,
    endDate: Option<string>,
    premium: Option<real>,
    coverageAmount: Option<real>,
    deductible: Option<real>,
    status: Option<string>)

  const EmptyPatch: PolicyPatch := PolicyPatch(None, None, None, None, None, None, None)

  /** `updatePolicySchema`: each field that is present must be valid. */
  predicate ValidPatch(f: Formats, x: PolicyPatch) {
    && (x.propertyType.Some? ==> f.isPropertyType(x.propertyType.value))
    && (x.startDate.Some? ==> f.isDate(x.startDate.value))
    && (x.endDate.Some? ==> f.isDate(x.endDate.value))
    && (x.premium.Some? ==> x.premium.value > 0.0)
    && (x.coverageAmount.Some? ==> x.coverageAmount.value > 0.0)
    && (x.deductible.Some? ==> x.deductible.value > 0.0)
    && (x.status.Some? ==> f.isPolicyStatus(x.status.value))
  }

  function Pick<T>(v: Option<T>, current: T): (r: T) {
    if v.Some? then v.value else current
  }

  /** The storage update with only the present fields of the patch. */
  function ApplyPatch(p: Policy, x: PolicyPatch): (q: Policy)
    ensures q.id == p.id && q.policyNumber == p.policyNumber && q.userId == p.userId
    ensures x.propertyType.None? ==> q.propertyType == p.propertyType
    ensures x.startDate.None? ==> q.startDate == p.startDate
    ensures x.endDate.None? ==> q.endDate == p.endDate
    ensures x.premium.None? ==> q.premium == p.premium
    ensures x.coverageAmount.None? ==> q.coverageAmount == p.coverageAmount
    ensures x.deductible.None? ==> q.deductible == p.deductible
    ensures x.status.None? ==> q.status == p.status
    ensures x.propertyType.Some? ==> q.propertyType == x.propertyType.value
    ensures x.startDate.Some? ==> q.startDate == x.startDate.value
    ensures x.endDate.Some? ==> q.endDate == x.endDate.value
    ensures x.premium.Some? ==> q.premium == x.premium.value
    ensures x.coverageAmount.Some? ==> q.coverageAmount == x.coverageAmount.value
    ensures x.deductible.Some? ==> q.deductible == x.deductible.value
    ensures x.status.Some? ==> q.status == x.status.value
  {
    p.(propertyType := Pick(x.propertyType, p.propertyType),
       startDate := Pick(x.startDate, p.startDate),
       endDate := Pick(x.endDate, p.endDate),
       premium := Pick(x.premium, p.premium),
       coverageAmount := Pick(x.coverageAmount, p.coverageAmount),
       deductible := Pick(x.deductible, p.deductible),
       status := Pick(x.status, p.status))
  }

  /** Two patches in a row act like one in which the later fields win. */
  function Merge(a: PolicyPatch, b: PolicyPatch): (m: PolicyPatch) {
    PolicyPatch(
      if b.propertyType.Some? then b.propertyType else a.propertyType,
      if b.startDate.Some? then b.startDate else a.startDate,
      if b.endDate.Some? then b.endDate else a.endDate,
      if b.premium.Some? then b.premium else a.premium,
      if b.coverageAmount.Some? then b.coverageAmount else a.coverageAmount,
      if b.deductible.Some? then b.deductible else a.deductible,
      if b.status.Some? then b.status else a.status)
  }

  /** Sequential patches compose; the empty patch changes nothing; a patch is idempotent. */
  lemma PatchAlgebra(p: Policy, a: PolicyPatch, b: PolicyPatch)
    ensures ApplyPatch(ApplyPatch(p, a), b) == ApplyPatch(p, Merge(a, b))
    ensures ApplyPatch(p, EmptyPatch) == p
    ensures ApplyPatch(ApplyPatch(p, a), a) == ApplyPatch(p, a)
  {
  }

  /**
   * `PUT /api/policies/:id`, in the route's order: body validation (400)
   * before any lookup, then existence (404), then ownership or ADMIN (403);
   * only then the write. Every refusal leaves the table as it was; a success
   * rewrites exactly the found policy, and only its patched fields.
   */
  function UpdatePolicy(f: Formats, caller: Caller, id: string, x: PolicyPatch, store: seq<Policy>)
    : (r: Step<Policy, seq<Policy>>)
    ensures !ValidPatch(f, x) ==> r == Step(Reply(400, ErrorBody(InvalidBody)), store)
    ensures ValidPatch(f, x) && FindPolicy(store, id).None? ==> r == Step(Reply(404, ErrorBody(NotFound)), store)
    ensures ValidPatch(f, x) && FindPolicy(store, id).Some?
            && !MayTouchPolicy(caller, store[FindPolicy(store, id).value].userId) ==>
      r == Step(Reply(403, ErrorBody(UpdateForbidden)), store)
    ensures ValidPatch(f, x) && FindPolicy(store, id).Some?
            && MayTouchPolicy(caller, store[FindPolicy(store, id).value].userId) ==>
      r.reply.status == 200
    ensures r.reply.status != 200 ==> r.state == store
    ensures r.reply.status == 200 ==>
      && FindPolicy(store, id).Some?
      && var i := FindPolicy(store, id).value;
      && MayTouchPolicy(caller, store[i].userId)
      && |r.state| == |store|
      && r.state[i] == ApplyPatch(store[i], x)
      && r.reply.body == Payload(r.state[i])
      && (forall j :: 0 <= j < |store| && j != i ==> r.state[j] == store[j])
  {
    if !ValidPatch(f, x) then Step(Reply(400, ErrorBody(InvalidBody)), store)
    else
      match FindPolicy(store, id)
      case None => Step(Reply(404, ErrorBody(NotFound)), store)
      case Some(i) =>
        if !MayTouchPolicy(caller, store[i].userId) then Step(Reply(403, ErrorBody(UpdateForbidden)), store)
        else
          var updated := ApplyPatch(store[i], x);
          Step(Reply(200, Payload(updated)), store[i := updated])
  }

  /** An update never changes any policy's id, number or owner, so the key stays unique. */
  lemma UpdateKeepsKeysAndOwners(f: Formats, caller: Caller, id: string, x: PolicyPatch, store: seq<Policy>)
    ensures var s := UpdatePolicy(f, caller, id, x, store).state;
      |s| == |store|
      && forall j :: 0 <= j < |store| ==>
        s[j].id == store[j].id && s[j].policyNumber == store[j].policyNumber && s[j].userId == store[j].userId
    ensures UniqueIds(store) ==> UniqueIds(UpdatePolicy(f, caller, id, x, store).state)
  {
  }
}

=== FILE: rows.dfy ===
/**
 * The storage engine's query primitives over a table held as a sequence of
 * rows in the order the query sorts them: a `where` filter, a count, the
 * first match of a unique lookup, and `skip`/`take` paging.
 */
module Rows {
  import opened Base

  /** The rows that satisfy the `where` predicate, in table order. */
  function Filter<T>(s: seq<T>, p: T -> bool): (r: seq<T>)
    ensures |r| <= |s|
    ensures forall i :: 0 <= i < |r| ==> r[i] in s && p(r[i])
    ensures forall i :: 0 <= i < |s| && p(s[i]) ==> s[i] in r
  {
    if |s| == 0 then [] else (if p(s[0]) then [s[0]] else []) + Filter(s[1..], p)
  }

  /** Filtering by a predicate every row satisfies keeps the whole table. */
  lemma {:induction false} FilterAll<T>(s: seq<T>, p: T -> bool)
    requires forall i :: 0 <= i < |s| ==> p(s[i])
    ensures Filter(s, p) == s
  {
    if |s| > 0 {
      FilterAll(s[1..], p);
      assert s == [s[0]] + s[1..];
    }
  }

  /** Filtering distributes over appending a row. */
  lemma {:induction false} FilterAppend<T>(s: seq<T>, x: T, p: T -> bool)
    ensures Filter(s + [x], p) == Filter(s, p) + (if p(x) then [x] else [])
  {
    if |s| > 0 {
      assert (s + [x])[1..] == s[1..] + [x];
      FilterAppend(s[1..], x, p);
    } else {
      assert s + [x] == [x];
    }
  }

  /** Filtering by a predicate no row satisfies leaves nothing. */
  lemma {:induction false} FilterNone<T>(s: seq<T>, p: T -> bool)
    requires forall i :: 0 <= i < |s| ==> !p(s[i])
    ensures Filter(s, p) == []
  {
    if |s| > 0 {
      FilterNone(s[1..], p);
    }
  }

  /**
   * When at most the row at position `k` satisfies the predicate, the filter
   * holds that row alone.
   */
  lemma {:induction false} FilterSingle<T>(s: seq<T>, p: T -> bool, k: nat)
    requires k < |s| && p(s[k])
    requires forall i :: 0 <= i < |s| && i != k ==> !p(s[i])
    ensures Filter(s, p) == [s[k]]
  {
    if k == 0 {
      FilterNone(s[1..], p);
    } else {
      FilterSingle(s[1..], p, k - 1);
    }
  }

  /** The number of rows that satisfy the predicate (`count({where})`). */
  function Count<T>(s: seq<T>, p: T -> bool): (n: nat)
    ensures n <= |s|
  {
    |Filter(s, p)|
  }

  /** Appending a row raises the count by one exactly when the row matches. */
  lemma CountAppend<T>(s: seq<T>, x: T, p: T -> bool)
    ensures Count(s + [x], p) == Count(s, p) + (if p(x) then 1 else 0)
  {
    FilterAppend(s, x, p);
  }

  /** The position of the first row that satisfies the predicate, if any. */
  function FirstIndex<T>(s: seq<T>, p: T -> bool): (r: Option<nat>)
    ensures r.Some? ==> r.value < |s| && p(s[r.value])
    ensures r.Some? ==> forall j :: 0 <= j < r.value ==> !p(s[j])
    ensures r.None? <==> forall j :: 0 <= j < |s| ==> !p(s[j])
  {
    if |s| == 0 then None
    else if p(s[0]) then Some(0)
    else
      match FirstIndex(s[1..], p)
      case Some(i) => Some(i + 1)
      case None => None
  }

  /**
   * `skip`/`take` paging. A negative `skip` is rejected by the storage engine
   * (`None`); a negative `take` counts rows back from the end of what is left
   * after skipping from the end.
   */
  function Window<T>(rows: seq<T>, skip: int, take: int): (r: Option<seq<T>>)
    ensures r.Some? <==> skip >= 0
    ensures r.Some? ==> |r.value| == Min(Abs(take), Max(0, |rows| - skip))
    ensures r.Some? && take >= 0 ==> forall i :: 0 <= i < |r.value| ==> r.value[i] == rows[skip + i]
    ensures r.Some? && take < 0 ==>
      forall i :: 0 <= i < |r.value| ==> r.value[i] == rows[|rows| - skip - |r.value| + i]
  {
    if skip < 0 then None
    else if take >= 0 then Some(rows[Min(skip, |rows|)..Min(skip + take, |rows|)])
    else
      var hi := |rows| - Min(skip, |rows|);
      Some(rows[Max(0, hi + take)..hi])
  }

  /** Every row of a page is a row of the table. */
  lemma WindowInside<T>(rows: seq<T>, skip: int, take: int)
    requires skip >= 0
    ensures forall i :: 0 <= i < |Window(rows, skip, take).value| ==> Window(rows, skip, take).value[i] in rows
  {
    var w := Window(rows, skip, take).value;
    forall i | 0 <= i < |w|
      ensures w[i] in rows
    {
      if take >= 0 {
        assert w[i] == rows[skip + i];
      } else {
        assert w[i] == rows[|rows| - skip - |w| + i];
      }
    }
  }

  /** Skipping at least as many rows as a table holds leaves nothing. */
  lemma WindowPastEnd<T>(rows: seq<T>, skip: int, take: int)
    requires skip >= |rows|
    ensures Window(rows, skip, take) == Some([])
  {
  }

  /** `Math.ceil(a / b)` on whole numbers (`b` may be negative, never 0). */
  function CeilDiv(a: nat, b: int): (q: int)
    requires b != 0
    ensures b > 0 ==> (q - 1) * b < a <= q * b
    ensures b < 0 ==> q * b <= a < (q - 1) * b
  {
    if b > 0 then CeilOfQuotient(a, b)
    else
      var k := FloorOfQuotient(a, -b);
      assert -(k as int) * b == k * -b && (-(k as int) - 1) * b == (k + 1) * -b;
      -(k as int)
  }

  /** The least `q` with `a <= q * b`, for a positive `b`. */
  function CeilOfQuotient(a: nat, b: int): (q: nat)
    requires b > 0
    ensures (q - 1) * b < a <= q * b
    decreases a
  {
    if a == 0 then 0
    else if a <= b then 1
    else
      var q := CeilOfQuotient(a - b, b);
      assert (q + 1) * b == q * b + b;
      q + 1
  }

  /** The greatest `k` with `k * m <= a`, for a positive `m`. */
  function FloorOfQuotient(a: nat, m: int): (k: nat)
    requires m > 0
    ensures k * m <= a < (k + 1) * m
    decreases a
  {
    if a < m then 0
    else
      var k := FloorOfQuotient(a - m, m);
      assert (k + 1) * m == k * m + m && (k + 2) * m == (k + 1) * m + m;
      k + 1
  }

  /**
   * The page count of a single page that holds at most `|limit|` rows: 0 or 1
   * for a positive limit, and 0 or -1 for a negative one.
   */
  lemma {:induction false} PagesOfOnePage(n: nat, limit: int)
    requires limit != 0 && n <= Abs(limit)
    ensures limit > 0 ==> CeilDiv(n, limit) == (if n == 0 then 0 else 1)
    ensures limit < 0 ==> CeilDiv(n, limit) == (if n == -limit then -1 else 0)
  {
    if limit < 0 && n == -limit {
      assert FloorOfQuotient(n - -limit, -limit) == 0;
    }
  }

}

=== FILE: schema.dfy ===
/** The validation library as far as the routes depend on it. */
module Schema {
  import opened Base

  /**
   * The format checks whose grammar the model does not spell out: a uuid, an
   * e-mail address, a value that coerces to a valid date, and membership of
   * the PropertyType, PolicyStatus and ClaimStatus enumerations.
   */
  datatype Formats = Formats(
    isUuid: string -> bool,
    isEmail: string -> bool,
    isDate: string -> bool,
    isPropertyType: string -> bool,
    isPolicyStatus: string -> bool,
    isClaimStatus: string -> bool)

  /** The outcome of a schema parse: the typed value, or a rejection. */
  datatype Parse<T> = Valid(value: T) | Invalid

  /**
   * A query-string value as the schema sees it. The framework's query parser
   * only ever produces text; a number is listed so that the numeric rule
   * itself can be stated.
   */
  datatype QueryValue = QNumber(n: real) | QText(s: string)

  /**
   * `z.number().int().positive().default(d)`: an absent value takes the
   * default, a positive whole number is accepted, anything else (text
   * included) is rejected.
   */
  function PositiveInt(v: Option<QueryValue>, default: int): (r: Parse<int>)
    requires default > 0
    ensures r.Valid? ==> r.value > 0
    ensures v.None? ==> r == Valid(default)
    ensures (v.Some? && v.value.QText?) ==> r.Invalid?
    ensures (v.Some? && v.value.QNumber?) ==> (r.Valid? <==> v.value.n > 0.0 && v.value.n == v.value.n.Floor as real)
    ensures (v.Some? && r.Valid?) ==> r.value as real == v.value.n
  {
    match v
    case None => Valid(default)
    case Some(QText(_)) => Invalid
    case Some(QNumber(n)) => if n == n.Floor as real && n > 0.0 then Valid(n.Floor) else Invalid
  }

  /** An optional enumeration field: absent passes, present must be a member. */
  function OptionalMember(v: Option<string>, isMember: string -> bool): (r: Parse<Option<string>>)
    ensures r.Valid? <==> (v.None? || isMember(v.value))
    ensures r.Valid? ==> r.value == v
  {
    if v.None? || isMember(v.value) then Valid(v) else Invalid
  }
}

=== FILE: text.dfy ===
/**
 * The JavaScript string primitives the routes rely on: white space, `trim`,
 * `split(" ")`, `parseInt`, `Number`, decimal rendering in template literals,
 * and a case-insensitive `contains`.
 */
module Text {
  import opened Base

  /** ECMAScript white space and line terminators (what `trim` and `parseInt` skip). */
  predicate IsJsSpace(c: char) {
    || c == '\t' || c == '\n' || c == '\U{B}' || c == '\U{C}' || c == '\r' || c == ' '
    || c == '\U{A0}' || c == '\U{1680}' || ('\U{2000}' <= c <= '\U{200A}')
    || c == '\U{2028}' || c == '\U{2029}' || c == '\U{202F}' || c == '\U{205F}'
    || c == '\U{3000}' || c == '\U{FEFF}'
  }

  /** Every character is white space (the empty string included). */
  predicate IsBlank(s: string) {
    forall i :: 0 <= i < |s| ==> IsJsSpace(s[i])
  }

  // ---------------------------------------------------------------- trimming

  /** The suffix of `s` that starts at its first non-space character. */
  function TrimStart(s: string): (r: string)
    ensures |r| <= |s| && r == s[|s| - |r|..]
    ensures forall i :: 0 <= i < |s| - |r| ==> IsJsSpace(s[i])
    ensures |r| > 0 ==> !IsJsSpace(r[0])
  {
    if |s| > 0 && IsJsSpace(s[0]) then TrimStart(s[1..]) else s
  }

  /** The prefix of `s` that ends at its last non-space character. */
  function TrimEnd(s: string): (r: string)
    ensures |r| <= |s| && r == s[..|r|]
    ensures forall i :: |r| <= i < |s| ==> IsJsSpace(s[i])
    ensures |r| > 0 ==> !IsJsSpace(r[|r| - 1])
  {
    if |s| > 0 && IsJsSpace(s[|s| - 1]) then TrimEnd(s[..|s| - 1]) else s
  }

  /** `String.prototype.trim`: the input with its white-space ends cut off (`TrimKeepsMiddle`). */
  function Trim(s: string): (r: string)
    ensures r == "" <==> IsBlank(s)
    ensures |r| > 0 ==> !IsJsSpace(r[0]) && !IsJsSpace(r[|r| - 1])
  {
    var r := TrimEnd(TrimStart(s));
    TrimBothEnds(s);
    r
  }

  /** What trimming keeps is a slice of the input between two blank ends. */
  lemma TrimKeepsMiddle(s: string)
    ensures exists i, j :: 0 <= i <= j <= |s| && Trim(s) == s[i..j] && IsBlank(s[..i]) && IsBlank(s[j..])
  {
    var t := TrimStart(s);
    BlankEndsSlice(s, t, TrimEnd(t));
  }

  /**
   * A suffix `t` of `s` behind white space, and a prefix `r` of `t` before
   * white space, make `r` a slice of `s` between two blank ends.
   */
  lemma BlankEndsSlice(s: string, t: string, r: string)
    requires |t| <= |s| && t == s[|s| - |t|..]
    requires forall k :: 0 <= k < |s| - |t| ==> IsJsSpace(s[k])
    requires |r| <= |t| && r == t[..|r|]
    requires forall k :: |r| <= k < |t| ==> IsJsSpace(t[k])
    ensures exists i, j :: 0 <= i <= j <= |s| && r == s[i..j] && IsBlank(s[..i]) && IsBlank(s[j..])
  {
    var i := |s| - |t|;
    var j := i + |r|;
    assert r == s[i..j];
    assert IsBlank(s[..i]) by {
      forall k | 0 <= k < i ensures IsJsSpace(s[..i][k]) {
        assert s[..i][k] == s[k];
      }
    }
    assert IsBlank(s[j..]) by {
      forall k | 0 <= k < |s| - j ensures IsJsSpace(s[j..][k]) {
        assert s[j..][k] == t[|r| + k];
      }
    }
  }

  lemma TrimBothEnds(s: string)
    ensures TrimEnd(TrimStart(s)) == "" <==> IsBlank(s)
    ensures |TrimEnd(TrimStart(s))| > 0 ==> !IsJsSpace(TrimEnd(TrimStart(s))[0])
    ensures var r := TrimEnd(TrimStart(s)); |r| > 0 ==> !IsJsSpace(r[|r| - 1])
  {
    var t := TrimStart(s);
    var r := TrimEnd(t);
    if r != "" {
      assert r[0] == t[0];
      assert s[|s| - |t|] == t[0];
    }
  }

  lemma {:induction false} TrimStartOfBlankPrefix(w: string, s: string)
    requires IsBlank(w)
    ensures TrimStart(w + s) == TrimStart(s)
    decreases |w|
  {
    if |w| > 0 {
      assert (w + s)[1..] == w[1..] + s;
      TrimStartOfBlankPrefix(w[1..], s);
    } else {
      assert w + s == s;
    }
  }

  // ------------------------------------------------------------------ digits

  /** The digit value of an ASCII letter or digit (36 for anything else). */
  function CharValue(c: char): (v: nat) {
    if '0' <= c <= '9' then c as int - '0' as int
    else if 'a' <= c <= 'z' then c as int - 'a' as int + 10
    else if 'A' <= c <= 'Z' then c as int - 'A' as int + 10
    else 36
  }

  predicate IsDigit(c: char, radix: nat) { CharValue(c) < radix }

  predicate AllDigits(s: string, radix: nat) {
    forall i :: 0 <= i < |s| ==> IsDigit(s[i], radix)
  }

  /** The longest prefix of `s` made of digits of the radix. */
  function LeadingDigits(s: string, radix: nat): (z: string)
    ensures |z| <= |s| && z == s[..|z|]
    ensures AllDigits(z, radix)
    ensures |z| < |s| ==> !IsDigit(s[|z|], radix)
  {
    if |s| > 0 && IsDigit(s[0], radix) then [s[0]] + LeadingDigits(s[1..], radix) else ""
  }

  /** The number a digit string denotes in the radix (most significant digit first). */
  function DigitsValue(z: string, radix: nat): (v: nat)
    requires AllDigits(z, radix)
  {
    if |z| == 0 then 0 else DigitsValue(z[..|z| - 1], radix) * radix + CharValue(z[|z| - 1])
  }

  function DecimalDigit(d: nat): (c: char)
    requires d < 10
    ensures IsDigit(c, 10) && CharValue(c) == d
  {
    ('0' as int + d) as char
  }

  /** The decimal rendering of a natural number, as a template literal prints it. */
  function NatToString(n: nat): (s: string)
    ensures |s| >= 1 && AllDigits(s, 10)
    ensures n < 10 <==> |s| == 1
    ensures s[0] == '0' <==> n == 0
  {
    if n < 10 then [DecimalDigit(n)]
    else NatToString(n / 10) + [DecimalDigit(n % 10)]
  }

  /** Reading the rendering back gives the number: the rendering is faithful. */
  lemma {:induction false} NatToStringValue(n: nat)
    ensures DigitsValue(NatToString(n), 10) == n
  {
    var s := NatToString(n);
    if n >= 10 {
      NatToStringValue(n / 10);
      assert s[..|s| - 1] == NatToString(n / 10);
    } else {
      assert s[..|s| - 1] == "";
    }
  }

  /** Distinct numbers render differently. */
  lemma NatToStringInjective(m: nat, n: nat)
    ensures NatToString(m) == NatToString(n) ==> m == n
  {
    NatToStringValue(m);
    NatToStringValue(n);
  }

  lemma {:induction false} LeadingDigitsOfAppend(z: string, rest: string, radix: nat)
    requires AllDigits(z, radix)
    requires rest == "" || !IsDigit(rest[0], radix)
    ensures LeadingDigits(z + rest, radix) == z
    decreases |z|
  {
    if |z| > 0 {
      assert (z + rest)[1..] == z[1..] + rest;
      LeadingDigitsOfAppend(z[1..], rest, radix);
    } else {
      assert z + rest == rest;
    }
  }

  // ---------------------------------------------------------------- parseInt

  /**
   * The unsigned part of `parseInt`: a `0x`/`0X` prefix selects base 16, and
   * the longest run of digits that follows is the value; no digit is NaN.
   */
  function ParseUnsigned(u: string): (r: Option<nat>)
    ensures r.Some? ==> |u| > 0 && IsDigit(u[0], 10)
  {
    var hex := |u| >= 2 && u[0] == '0' && (u[1] == 'x' || u[1] == 'X');
    var z := if hex then LeadingDigits(u[2..], 16) else LeadingDigits(u, 10);
    if |z| == 0 then None else Some(DigitsValue(z, if hex then 16 else 10))
  }

  /** `parseInt` after white space: one optional sign, then the unsigned part. */
  function ParseSigned(t: string): (r: Option<int>)
    ensures r.Some? ==> |t| > 0 && (t[0] == '-' || t[0] == '+' || IsDigit(t[0], 10))
  {
    if |t| > 0 && t[0] == '-' then
      match ParseUnsigned(t[1..])
      case Some(v) => Some(-(v as int))
      case None => None
    else if |t| > 0 && t[0] == '+' then
      match ParseUnsigned(t[1..])
      case Some(v) => Some(v as int)
      case None => None
    else
      match ParseUnsigned(t)
      case Some(v) => Some(v as int)
      case None => None
  }

  /**
   * `parseInt(s)` with no radix argument: leading white space is skipped,
   * then the signed part is read; minus zero is folded into 0.
   */
  function ParseInt(s: string): (r: Option<int>)
  {
    ParseSigned(TrimStart(s))
  }

  /** `parseInt` yields a number only for text that, after white space, starts with a sign or a digit. */
  lemma ParseIntNeedsSignOrDigit(s: string)
    ensures var t := TrimStart(s);
      ParseInt(s).Some? ==> |t| > 0 && (t[0] == '-' || t[0] == '+' || IsDigit(t[0], 10))
  {
  }

  /** A rendered number followed by anything that cannot continue it. */
  lemma ParseUnsignedOfDecimal(n: nat, rest: string)
    requires rest == "" || !IsDigit(rest[0], 10)
    requires n == 0 && rest != "" ==> rest[0] != 'x' && rest[0] != 'X'
    ensures ParseUnsigned(NatToString(n) + rest) == Some(n)
  {
    var d := NatToString(n);
    var u := d + rest;
    assert !(|u| >= 2 && u[0] == '0' && (u[1] == 'x' || u[1] == 'X')) by {
      if |u| >= 2 && u[0] == '0' {
        assert d[0] == '0';
        assert u[1] == rest[0];
      }
    }
    LeadingDigitsOfAppend(d, rest, 10);
    NatToStringValue(n);
  }

  /**
   * `parseInt` reads back a rendered number behind a sign character, with
   * anything after it that cannot continue the number.
   */
  lemma ParseIntOfSignedDecimal(sign: char, n: nat, rest: string)
    requires sign == '-' || sign == '+'
    requires rest == "" || !IsDigit(rest[0], 10)
    requires n == 0 && rest != "" ==> rest[0] != 'x' && rest[0] != 'X'
    ensures ParseInt([sign] + (NatToString(n) + rest)) == Some(if sign == '-' then -(n as int) else n)
  {
    var u := NatToString(n) + rest;
    var s := [sign] + u;
    TrimStartOfSolid(s);
    assert s[1..] == u;
    ParseUnsignedOfDecimal(n, rest);
  }

  /** `parseInt` reads a minus sign before a rendered number as its negation. */
  lemma ParseIntOfNegativeDecimal(n: nat)
    ensures ParseInt("-" + NatToString(n)) == Some(-(n as int))
  {
    var d := NatToString(n);
    ParseIntOfSignedDecimal('-', n, "");
    assert ['-'] + (d + "") == "-" + d;
  }

  /**
   * `parseInt` reads back a rendered number followed by anything that cannot
   * continue it.
   */
  lemma ParseIntOfDecimal(n: nat, rest: string)
    requires rest == "" || !IsDigit(rest[0], 10)
    requires n == 0 && rest != "" ==> rest[0] != 'x' && rest[0] != 'X'
    ensures ParseInt(NatToString(n) + rest) == Some(n)
  {
    var s := NatToString(n) + rest;
    assert s[0] == NatToString(n)[0];
    TrimStartOfSolid(s);
    ParseUnsignedOfDecimal(n, rest);
    assert s[0] != '-' && s[0] != '+';
    assert ParseSigned(s) == Some(n);
  }

  /** Nothing is trimmed from a string that starts with a sign or a digit. */
  lemma TrimStartOfSolid(s: string)
    requires |s| > 0 && (s[0] == '-' || s[0] == '+' || IsDigit(s[0], 10))
    ensures TrimStart(s) == s
  {
    SignOrDigitIsSolid(s[0]);
  }

  lemma SignOrDigitIsSolid(c: char)
    requires c == '-' || c == '+' || IsDigit(c, 10)
    ensures !IsJsSpace(c)
  {
  }

  /** Leading white space never changes what `parseInt` reads. */
  lemma ParseIntSkipsLeadingSpace(w: string, s: string)
    requires IsBlank(w)
    ensures ParseInt(w + s) == ParseInt(s)
  {
    TrimStartOfBlankPrefix(w, s);
  }

  /** A string without a decimal digit is NaN to `parseInt`. */
  lemma ParseIntWithoutDigits(s: string)
    requires forall i :: 0 <= i < |s| ==> !IsDigit(s[i], 10)
    ensures ParseInt(s) == None
  {
    var t := TrimStart(s);
    assert forall i :: 0 <= i < |t| ==> t[i] == s[|s| - |t| + i];
    ParseSignedWithoutDigits(t);
  }

  lemma ParseSignedWithoutDigits(t: string)
    requires forall i :: 0 <= i < |t| ==> !IsDigit(t[i], 10)
    ensures ParseSigned(t) == None
  {
    ParseUnsignedWithoutLeadingDigit(t);
    if |t| > 0 {
      var u := t[1..];
      assert |u| > 0 ==> u[0] == t[1];
      ParseUnsignedWithoutLeadingDigit(u);
    }
  }

  /** Without a digit in front there is nothing for the unsigned part to read. */
  lemma ParseUnsignedWithoutLeadingDigit(u: string)
    requires |u| == 0 || !IsDigit(u[0], 10)
    ensures ParseUnsigned(u) == None
  {
    assert |u| == 0 || u[0] != '0';
    assert LeadingDigits(u, 10) == "";
  }

  // ------------------------------------------------------------------ Number

  /** A digit string of the radix, read as a whole (empty or stray characters: NaN). */
  function RadixLiteral(u: string, radix: nat): (r: Option<int>)
    ensures r.Some? <==> |u| > 0 && AllDigits(u, radix)
    ensures r.Some? ==> r.value >= 0
  {
    if |u| > 0 && AllDigits(u, radix) then Some(DigitsValue(u, radix)) else None
  }

  /**
   * `Number(s)` restricted to the integers: blank text is 0, a signed decimal
   * integer or an unsigned `0x`/`0o`/`0b` literal is its value; every other
   * form is `None` (NaN, or a value this model does not treat as an integer).
   */
  function JsNumber(s: string): (r: Option<int>)
  {
    NumberOfTrimmed(Trim(s))
  }

  function NumberOfTrimmed(t: string): (r: Option<int>)
  {
    if |t| == 0 then Some(0)
    else
      var radix := LiteralRadix(t);
      var negative := radix == 10 && t[0] == '-';
      var digits := if radix != 10 then t[2..] else if t[0] == '-' || t[0] == '+' then t[1..] else t;
      match RadixLiteral(digits, radix)
      case Some(v) => Some(if negative then -v else v)
      case None => None
  }

  /** A `0x`, `0o` or `0b` prefix (either case) selects base 16, 8 or 2; anything else is decimal. */
  function LiteralRadix(t: string): (radix: nat)
    ensures radix != 10 ==> |t| >= 2 && t[0] == '0'
  {
    if |t| >= 2 && t[0] == '0' && (t[1] == 'x' || t[1] == 'X') then 16
    else if |t| >= 2 && t[0] == '0' && (t[1] == 'o' || t[1] == 'O') then 8
    else if |t| >= 2 && t[0] == '0' && (t[1] == 'b' || t[1] == 'B') then 2
    else 10
  }

  /** `Number` reads a minus sign in front of decimal digits as the negated value of the digits. */
  lemma NumberOfNegativeDigits(d: string)
    requires |d| > 0 && AllDigits(d, 10)
    ensures JsNumber("-" + d) == Some(-(DigitsValue(d, 10) as int))
  {
    var s := "-" + d;
    assert s[|s| - 1] == d[|d| - 1];
    SignOrDigitIsSolid('-');
    SignOrDigitIsSolid(d[|d| - 1]);
    TrimOfSolidEnds(s);
    NumberOfTrimmedNegative(d);
  }

  lemma NumberOfTrimmedNegative(d: string)
    requires |d| > 0 && AllDigits(d, 10)
    ensures NumberOfTrimmed("-" + d) == Some(-(DigitsValue(d, 10) as int))
  {
    var s := "-" + d;
    assert s[1..] == d;
    assert s[0] == '-';
    assert LiteralRadix(s) == 10;
    var v := DigitsValue(d, 10);
    assert RadixLiteral(d, 10) == Some(v);
    assert NumberOfTrimmed(s) == Some(-(v as int));
  }

  /** `Number` of a blank string is zero. */
  lemma JsNumberOfBlank(s: string)
    requires IsBlank(s)
    ensures JsNumber(s) == Some(0)
  {
  }

  /** Trimming leaves a string alone when neither end is white space. */
  lemma TrimOfSolidEnds(s: string)
    requires |s| > 0 && !IsJsSpace(s[0]) && !IsJsSpace(s[|s| - 1])
    ensures Trim(s) == s
  {
    assert TrimStart(s) == s;
    assert TrimEnd(s) == s;
  }

  /** `Number` reads back a rendered number. */
  lemma JsNumberOfDecimal(n: nat)
    ensures JsNumber(NatToString(n)) == Some(n)
  {
    var d := NatToString(n);
    NatToStringValue(n);
    NumberOfDigits(d);
  }

  /** `Number` reads unsigned decimal digits as their value. */
  lemma NumberOfDigits(d: string)
    requires |d| > 0 && AllDigits(d, 10)
    ensures JsNumber(d) == Some(DigitsValue(d, 10))
  {
    assert IsDigit(d[0], 10) && IsDigit(d[|d| - 1], 10);
    TrimOfSolidEnds(d);
    NumberOfTrimmedDigits(d);
  }

  lemma NumberOfTrimmedDigits(d: string)
    requires |d| > 0 && AllDigits(d, 10)
    ensures NumberOfTrimmed(d) == Some(DigitsValue(d, 10))
  {
    assert IsDigit(d[0], 10);
    assert d[0] != '-' && d[0] != '+';
    assert LiteralRadix(d) == 10;
    var v := DigitsValue(d, 10);
    assert RadixLiteral(d, 10) == Some(v);
  }

  // -------------------------------------------------------------- split/join

  /** The inverse of `split`: the parts glued back with the separator between them. */
  function Join(parts: seq<string>, sep: char): (s: string)
    requires |parts| >= 1
  {
    if |parts| == 1 then parts[0] else parts[0] + [sep] + Join(parts[1..], sep)
  }

  /** `s.split(sep)` for a one-character separator. */
  function Split(s: string, sep: char): (parts: seq<string>)
    ensures |parts| >= 1
    ensures forall i :: 0 <= i < |parts| ==> sep !in parts[i]
  {
    if |s| == 0 then [""]
    else
      var rest := Split(s[1..], sep);
      if s[0] == sep then [""] + rest
      else [[s[0]] + rest[0]] + rest[1..]
  }

  /** Splitting loses nothing: joining the parts gives the string back. */
  lemma {:induction false} JoinSplit(s: string, sep: char)
    ensures Join(Split(s, sep), sep) == s
  {
    if |s| > 0 {
      var rest := Split(s[1..], sep);
      JoinSplit(s[1..], sep);
      var parts := Split(s, sep);
      if s[0] == sep {
        assert parts[1..] == rest;
      } else {
        assert parts[1..] == rest[1..];
        if |rest| > 1 {
          assert Join(rest, sep) == rest[0] + [sep] + Join(rest[1..], sep);
        }
      }
    }
  }

  /** Parts without the separator are exactly what splitting their join gives. */
  lemma {:induction false} SplitJoin(parts: seq<string>, sep: char)
    requires |parts| >= 1
    requires forall i :: 0 <= i < |parts| ==> sep !in parts[i]
    ensures Split(Join(parts, sep), sep) == parts
    decreases |parts|, |parts[0]|
  {
    var s := Join(parts, sep);
    if parts[0] == "" {
      if |parts| > 1 {
        assert s == [sep] + Join(parts[1..], sep);
        assert s[1..] == Join(parts[1..], sep);
        SplitJoin(parts[1..], sep);
        assert parts == [""] + parts[1..];
      }
    } else {
      var tail := [parts[0][1..]] + parts[1..];
      assert tail[1..] == parts[1..];
      assert forall i :: 0 <= i < |tail| ==> sep !in tail[i] by {
        forall i | 0 <= i < |tail|
          ensures sep !in tail[i]
        {
          if i == 0 {
            assert parts[0] == [parts[0][0]] + tail[0];
          } else {
            assert tail[i] == parts[i];
          }
        }
      }
      assert s == [parts[0][0]] + Join(tail, sep) by {
        if |parts| == 1 {
          assert parts[0] == [parts[0][0]] + parts[0][1..];
        } else {
          assert Join(tail, sep) == tail[0] + [sep] + Join(parts[1..], sep);
          assert parts[0] == [parts[0][0]] + parts[0][1..];
        }
      }
      assert s[1..] == Join(tail, sep);
      assert s[0] == parts[0][0] && s[0] != sep by {
        assert parts[0][0] in parts[0];
      }
      SplitJoin(tail, sep);
      assert parts[0] == [parts[0][0]] + tail[0];
      assert parts == [[parts[0][0]] + tail[0]] + tail[1..];
    }
  }

  /** The text after the last occurrence of `sep` (all of `s` when there is none). */
  function AfterLast(s: string, sep: char): (r: string)
    ensures sep !in r
  {
    if |s| == 0 || s[|s| - 1] == sep then "" else AfterLast(s[..|s| - 1], sep) + [s[|s| - 1]]
  }

  /** The tail behind the last separator is recovered by `AfterLast`. */
  lemma {:induction false} AfterLastOf(a: string, sep: char, d: string)
    requires sep !in d
    ensures AfterLast(a + [sep] + d, sep) == d
    decreases |d|
  {
    var s := a + [sep] + d;
    if |d| > 0 {
      var d' := d[..|d| - 1];
      assert s[..|s| - 1] == a + [sep] + d';
      assert d[|d| - 1] in d;
      AfterLastOf(a, sep, d');
      assert d == d' + [d[|d| - 1]];
    }
  }

  /** `a + sep + d` determines `a` and `d` when `d` holds no separator. */
  lemma JoinLastInjective(a1: string, d1: string, a2: string, d2: string, sep: char)
    requires sep !in d1 && sep !in d2
    requires a1 + [sep] + d1 == a2 + [sep] + d2
    ensures a1 == a2 && d1 == d2
  {
    AfterLastOf(a1, sep, d1);
    AfterLastOf(a2, sep, d2);
    var s := a1 + [sep] + d1;
    assert a1 == s[..|a1|] && a2 == s[..|a2|];
  }

  /** A decimal rendering holds no character other than digits. */
  lemma NatToStringHasNo(n: nat, c: char)
    requires !IsDigit(c, 10)
    ensures c !in NatToString(n)
  {
  }

  /**
   * A record number in the template `${prefix}${key}-${n}`, as policy and
   * claim numbers are built.
   */
  function Numbered(prefix: string, key: string, n: nat): (r: string)
    ensures |r| > |prefix| && r[..|prefix|] == prefix
  {
    prefix + key + "-" + NatToString(n)
  }

  /** Under one prefix, a record number determines the key and the sequence number. */
  lemma NumberedInjective(prefix: string, k1: string, n1: nat, k2: string, n2: nat)
    requires Numbered(prefix, k1, n1) == Numbered(prefix, k2, n2)
    ensures k1 == k2 && n1 == n2
  {
    NatToStringHasNo(n1, '-');
    NatToStringHasNo(n2, '-');
    JoinLastInjective(prefix + k1, NatToString(n1), prefix + k2, NatToString(n2), '-');
    NatToStringInjective(n1, n2);
    assert k1 == (prefix + k1)[|prefix|..];
    assert k2 == (prefix + k2)[|prefix|..];
  }

  // ------------------------------------------------------------ containment

  /** ASCII lower-casing (other characters are left as they are). */
  function Lower(c: char): (r: char)
    ensures 'A' <= c <= 'Z' ==> CharValue(r) == CharValue(c) && 'a' <= r <= 'z'
    ensures !('A' <= c <= 'Z') ==> r == c
  {
    if 'A' <= c <= 'Z' then (c as int - 'A' as int + 'a' as int) as char else c
  }

  function LowerAll(s: string): (r: string)
    ensures |r| == |s|
    ensures forall i :: 0 <= i < |s| ==> r[i] == Lower(s[i])
  {
    seq(|s|, i requires 0 <= i < |s| => Lower(s[i]))
  }

  predicate StartsWith(s: string, p: string) {
    |p| <= |s| && s[..|p|] == p
  }

  /** `t` occurs in `s` starting at position `i`. */
  predicate OccursAt(s: string, t: string, i: int) {
    0 <= i <= |s| - |t| && s[i..i + |t|] == t
  }

  /** `s` contains `t` somewhere, checked position by position. */
  predicate Contains(s: string, t: string)
    decreases |s|
  {
    StartsWith(s, t) || (|s| > 0 && Contains(s[1..], t))
  }

  /** `Contains` agrees with the positional definition of a substring. */
  lemma {:induction false} ContainsIffOccurs(s: string, t: string)
    ensures Contains(s, t) <==> exists i :: OccursAt(s, t, i)
    decreases |s|
  {
    if |s| > 0 {
      ContainsIffOccurs(s[1..], t);
    }
    if Contains(s, t) {
      if StartsWith(s, t) {
        assert OccursAt(s, t, 0);
      } else {
        var i :| OccursAt(s[1..], t, i);
        assert s[1..][i..i + |t|] == s[i + 1..i + 1 + |t|];
        assert OccursAt(s, t, i + 1);
      }
    }
    if exists i :: OccursAt(s, t, i) {
      var i :| OccursAt(s, t, i);
      if i == 0 {
        assert StartsWith(s, t);
      } else {
        assert s[1..][i - 1..i - 1 + |t|] == s[i..i + |t|];
        assert OccursAt(s[1..], t, i - 1);
      }
    }
  }

  /** Case-insensitive containment (ASCII letters fold to lower case). */
  predicate ContainsIgnoringCase(s: string, t: string) {
    Contains(LowerAll(s), LowerAll(t))
  }

  /** Every string contains itself, whatever the case of its letters. */
  lemma ContainsIgnoringCaseReflexive(s: string)
    ensures ContainsIgnoringCase(s, s)
  {
    var l := LowerAll(s);
    assert l[..|l|] == l;
  }

  // ------------------------------------------------------------------ length

  /** A character outside the Basic Multilingual Plane, stored as a UTF-16 surrogate pair. */
  predicate IsAstral(c: char) { c as int >= 0x1_0000 }

  /** `String.prototype.length`: the number of UTF-16 code units. */
  function Utf16Length(s: string): (n: nat)
    ensures |s| <= n <= 2 * |s|
  {
    if |s| == 0 then 0 else Utf16Length(s[..|s| - 1]) + (if IsAstral(s[|s| - 1]) then 2 else 1)
  }

  /** The length of a concatenation is the sum of the lengths. */
  lemma {:induction false} Utf16LengthAppend(a: string, b: string)
    ensures Utf16Length(a + b) == Utf16Length(a) + Utf16Length(b)
    decreases |b|
  {
    if |b| == 0 {
      assert a + b == a;
    } else {
      assert (a + b)[..|a + b| - 1] == a + b[..|b| - 1];
      Utf16LengthAppend(a, b[..|b| - 1]);
    }
  }

  /**
   * The length counts one unit per character of the Basic Multilingual Plane
   * and two per character beyond it.
   */
  lemma {:induction false} Utf16LengthCounts(s: string)
    ensures (forall i :: 0 <= i < |s| ==> !IsAstral(s[i])) ==> Utf16Length(s) == |s|
    ensures (forall i :: 0 <= i < |s| ==> IsAstral(s[i])) ==> Utf16Length(s) == 2 * |s|
  {
    if |s| > 0 {
      var init := s[..|s| - 1];
      Utf16LengthCounts(init);
      assert forall i :: 0 <= i < |init| ==> init[i] == s[i];
    }
  }
}

=== FILE: users_controller.dfy ===
/**
 * The in-memory users controller: a module-level list seeded with two users,
 * created with id "length + 1", updated field by field where the new value is
 * not blank, and deleted by splicing. Each handler returns the new list.
 */
module UsersController {
  import opened Base
  import opened Http
  import opened Text
  import opened Rows

  datatype UserEntry = UserEntry(id: int, name: string, email: string)

  const NameEmailRequired: string := "Name and email are required"
  const InvalidUserId: string := "Invalid user ID"
  const UserNotFound: string := "User not found"
  const UserDeleted: string := "User deleted successfully"

  /** The list the process starts with. */
  const Seed: seq<UserEntry> := [
    UserEntry(1, "John Doe", "john.doe@example.com"),
    UserEntry(2, "Jane Doe", "jane.doe@example.com")
  ]

  /** Ids are pairwise distinct. */
  predicate UniqueIds(users: seq<UserEntry>) {
    forall i, j :: 0 <= i < j < |users| ==> users[i].id != users[j].id
  }

  /** The ids are exactly 1, 2, ..., n in list order. */
  predicate SequentialIds(users: seq<UserEntry>) {
    forall i :: 0 <= i < |users| ==> users[i].id == i + 1
  }

  lemma SequentialIdsAreUnique(users: seq<UserEntry>)
    requires SequentialIds(users)
    ensures UniqueIds(users)
  {
  }

  /** A supplied value replaces the old one unless it is missing or only white space. */
  function SafeUpdate(newValue: Option<string>, oldValue: string): (r: string)
    ensures newValue.Some? && !IsBlank(newValue.value) ==> r == newValue.value
    ensures newValue.None? || IsBlank(newValue.value) ==> r == oldValue
  {
    if Truthy(newValue) && Trim(newValue.value) != "" then newValue.value else oldValue
  }

  /** Applying the same update twice is the same as applying it once. */
  lemma SafeUpdateIdempotent(newValue: Option<string>, oldValue: string)
    ensures SafeUpdate(newValue, SafeUpdate(newValue, oldValue)) == SafeUpdate(newValue, oldValue)
  {
  }

  /** The position of the first user with the given id (`findIndex`). */
  function FindUser(users: seq<UserEntry>, id: int): (r: Option<nat>)
    ensures r.Some? ==> r.value < |users| && users[r.value].id == id
    ensures r.Some? ==> forall j :: 0 <= j < r.value ==> users[j].id != id
    ensures r.None? <==> forall j :: 0 <= j < |users| ==> users[j].id != id
  {
    FirstIndex(users, (u: UserEntry) => u.id == id)
  }

  /** `GET /`: the whole list, unchanged. */
  function AllUsers(users: seq<UserEntry>): (r: Step<seq<UserEntry>, seq<UserEntry>>)
    ensures r.reply == Reply(200, Payload(users)) && r.state == users
  {
    Step(Reply(200, Payload(users)), users)
  }

  /** `POST /`: append a user whose id is one more than the current length. */
  function CreateUser(users: seq<UserEntry>, name: Option<string>, email: Option<string>)
    : (r: Step<UserEntry, seq<UserEntry>>)
    ensures !Truthy(name) || !Truthy(email) ==> r == Step(Reply(400, MessageBody(NameEmailRequired)), users)
    ensures Truthy(name) && Truthy(email) ==>
      && r.reply.status == 201
      && |r.state| == |users| + 1 && r.state[..|users|] == users
      && r.state[|users|] == UserEntry(|users| + 1, name.value, email.value)
      && r.reply.body == Payload(r.state[|users|])
  {
    if !Truthy(name) || !Truthy(email) then Step(Reply(400, MessageBody(NameEmailRequired)), users)
    else
      var user := UserEntry(|users| + 1, name.value, email.value);
      Step(Reply(201, Payload(user)), users + [user])
  }

  /** As long as nothing is deleted, creation keeps the ids 1..n and so keeps them distinct. */
  lemma CreateKeepsSequentialIds(users: seq<UserEntry>, name: Option<string>, email: Option<string>)
    requires SequentialIds(users)
    ensures SequentialIds(CreateUser(users, name, email).state)
    ensures UniqueIds(CreateUser(users, name, email).state)
  {
    var after := CreateUser(users, name, email).state;
    if Truthy(name) && Truthy(email) {
      assert forall i :: 0 <= i < |users| ==> after[i] == users[i];
    }
  }

  /** `PUT /:id`: rewrite the name and e-mail of the first user with that id. */
  function UpdateUser(users: seq<UserEntry>, rawId: string, name: Option<string>, email: Option<string>)
    : (r: Step<UserEntry, seq<UserEntry>>)
    ensures ParseInt(rawId).None? || ParseInt(rawId).value <= 0 ==>
      r == Step(Reply(400, MessageBody(InvalidUserId)), users)
    ensures ParseInt(rawId).Some? && ParseInt(rawId).value > 0 && FindUser(users, ParseInt(rawId).value).None? ==>
      r == Step(Reply(404, MessageBody(UserNotFound)), users)
    ensures r.reply.status in {200, 400, 404}
    ensures r.reply.status == 200 <==>
      ParseInt(rawId).Some? && ParseInt(rawId).value > 0 && FindUser(users, ParseInt(rawId).value).Some?
    ensures r.reply.status == 200 ==>
      var i := FindUser(users, ParseInt(rawId).value).value;
      && |r.state| == |users|
      && r.state[i] == UserEntry(users[i].id, SafeUpdate(name, users[i].name), SafeUpdate(email, users[i].email))
      && (forall j :: 0 <= j < |users| && j != i ==> r.state[j] == users[j])
      && r.reply.body == Payload(r.state[i])
  {
    match ParseInt(rawId)
    case None => Step(Reply(400, MessageBody(InvalidUserId)), users)
    case Some(id) =>
      if id <= 0 then Step(Reply(400, MessageBody(InvalidUserId)), users)
      else
        match FindUser(users, id)
        case None => Step(Reply(404, MessageBody(UserNotFound)), users)
        case Some(i) =>
          var u := users[i];
          var updated := UserEntry(u.id, SafeUpdate(name, u.name), SafeUpdate(email, u.email));
          Step(Reply(200, Payload(updated)), users[i := updated])
  }

  /** An update never changes an id, so it keeps the id invariants. */
  lemma UpdateKeepsIds(users: seq<UserEntry>, rawId: string, name: Option<string>, email: Option<string>)
    ensures var after := UpdateUser(users, rawId, name, email).state;
      |after| == |users| && forall j :: 0 <= j < |users| ==> after[j].id == users[j].id
  {
  }

  datatype Deleted = Deleted(message: string, user: UserEntry)

  /** `DELETE /:id`: splice out the first user with that id. */
  function DeleteUser(users: seq<UserEntry>, rawId: string): (r: Step<Deleted, seq<UserEntry>>)
    ensures r.reply.status == 200 || r == Step(Reply(404, MessageBody(UserNotFound)), users)
    ensures r.reply.status == 404 <==>
      ParseInt(rawId).None? || forall j :: 0 <= j < |users| ==> users[j].id != ParseInt(rawId).value
    ensures r.reply.status == 200 ==>
      var i := FindUser(users, ParseInt(rawId).value).value;
      && users[i].id == ParseInt(rawId).value
      && r.state == users[..i] + users[i + 1..]
      && |r.state| == |users| - 1
      && r.reply.body == Payload(Deleted(UserDeleted, users[i]))
  {
    match ParseInt(rawId)
    case None => Step(Reply(404, MessageBody(UserNotFound)), users)
    case Some(id) =>
      match FindUser(users, id)
      case None => Step(Reply(404, MessageBody(UserNotFound)), users)
      case Some(i) => Step(Reply(200, Payload(Deleted(UserDeleted, users[i]))), users[..i] + users[i + 1..])
  }

  /** Deletion removes exactly the reported user: nothing else is lost or added. */
  lemma DeleteRemovesOnlyThatUser(users: seq<UserEntry>, rawId: string)
    requires DeleteUser(users, rawId).reply.status == 200
    ensures var r := DeleteUser(users, rawId);
      multiset(r.state) + multiset{r.reply.body.value.user} == multiset(users)
  {
    var r := DeleteUser(users, rawId);
    var i := FindUser(users, ParseInt(rawId).value).value;
    assert r.state == users[..i] + users[i + 1..];
    assert r.reply.body.value.user == users[i];
    SpliceMultiset(users, i);
  }

  lemma SpliceMultiset<T>(s: seq<T>, i: nat)
    requires i < |s|
    ensures multiset(s[..i] + s[i + 1..]) + multiset{s[i]} == multiset(s)
  {
    assert s == s[..i] + [s[i]] + s[i + 1..];
  }

  /**
   * Deleting a user and then creating one can repeat an id: from the seed,
   * deleting user 1 leaves one user (id 2), and the next user created gets id
   * `1 + 1 = 2` as well.
   */
  lemma DuplicateIdAfterDelete(rawId: string, name: Option<string>, email: Option<string>)
    requires ParseInt(rawId) == Some(1) && Truthy(name) && Truthy(email)
    ensures var afterDelete := DeleteUser(Seed, rawId).state;
      var afterCreate := CreateUser(afterDelete, name, email).state;
      |afterCreate| == 2 && afterCreate[0].id == 2 && afterCreate[1].id == 2
      && !UniqueIds(afterCreate)
  {
    assert FindUser(Seed, 1) == Some(0);
    var deleted := DeleteUser(Seed, rawId);
    assert deleted.state == Seed[1..];
  }

  /** On the seed, the delete handler called with id `1` and then the create handler leave two users with id 2. */
  lemma DeletingUserOneDuplicatesId(name: Option<string>, email: Option<string>)
    requires Truthy(name) && Truthy(email)
    ensures var afterDelete := DeleteUser(Seed, "1").state;
      var afterCreate := CreateUser(afterDelete, name, email).state;
      |afterCreate| == 2 && afterCreate[0].id == 2 && afterCreate[1].id == 2
  {
    ParseIntOfOne();
    DuplicateIdAfterDelete("1", name, email);
  }

  /** The id segment "1" is read as user 1. */
  lemma ParseIntOfOne()
    ensures ParseInt("1") == Some(1)
  {
    assert NatToString(1) + "" == "1";
    ParseIntOfDecimal(1, "");
  }
}
